=== FILE: README.md ===
# Foodgram backend core, modelled in Dafny

Foodgram is a recipe-sharing web service. Users publish recipes built from
ingredients and tags. They follow other authors, mark recipes as favourites,
and put recipes in a shopping cart. From the cart they download a shopping
list that sums the ingredient amounts of every recipe in it.

This project models the core of the Django backend as pure functions over an
immutable store, and proves properties of those functions. The core is:

- the follow, favourite and shopping-cart toggles, with their validators;
- recipe create and update, including `adding_ingredients`;
- the shopping-list report;
- sign-up validation, the username and range validators, and the image field;
- the two permission classes and the role predicates;
- the `is_favorited` and `is_in_shopping_cart` recipe filters.

Layout, one module per file:

| file | module | models |
|---|---|---|
| `results.dfy` | `Results` | `Option`, `Result` and the error values the backend raises as exceptions |
| `text.dfy` | `Text` | Python's `startswith`, `split`, `rsplit`, `join`, `[-1]`, `strip()` and `str(int)` |
| `fields.dfy` | `Fields` | DRF's `CharField` and `EmailField` as the serializers declare them |
| `links.dfy` | `Links` | a table of (actor, target) rows: insert, delete, counts |
| `store.dfy` | `Store` | the entities of `users/models.py` and `recipes/models.py` and their derived properties |
| `accounts.dfy` | `Accounts` | `UserCreateSerializer`: the username pattern, `validate`, the insert |
| `image.dfy` | `Image` | `Base64ImageField.to_internal_value` and the uploaded file |
| `permissions.dfy` | `Permissions` | `IsAdminOrSuperuserOrReadOnly`, `IsAuthorStaffOrReadOnly` |
| `toggles.dfy` | `Toggles` | the follow/favourite/cart validators and view actions |
| `aggregate.dfy` | `Aggregate` | recipe payload validation, `adding_ingredients`, `create`, `update` |
| `report.dfy` | `Report` | `download_shopping_cart` |
| `filters.dfy` | `Filters` | `RecipeFilter.filter_is_favorited`, `filter_is_in_shopping_cart` |

Modelling choices:

- **Tables.** Every table is a sequence of rows in primary-key order. An
  insert appends a row; a delete removes rows in place. The `ordering = ['id']`
  of the link and line tables is therefore the sequence order.
- **Failures are values.** A validation error, a 404 from `get_object_or_404`
  or a database `IntegrityError` is returned as `Err(...)`.
- **Create and update are not atomic.** `RecipeCreateSerializer.create` and
  `update` run without a transaction. Each returns an `Effect`: the store
  after the call, together with its outcome. On a failure the store keeps
  the writes made before it. A failed `update` leaves the recipe with its new
  tags and no ingredient lines (`Aggregate.UpdateFailureIsPartial`). A failed
  `create` leaves a recipe row with no lines
  (`Aggregate.CreateFailureLeavesEmptyRecipe`).
- **Range bounds.** The serializers check amounts and cooking times against
  1..32000: `COOKING_TIME_ANF_AMOUNT_MIN = 1` and
  `COOKING_TIME_ANF_AMOUNT_MAX = 32000`.
- **Sign-up of an existing pair.** `UserCreateSerializer` declares `username`
  and `email` itself, so no unique-field validator runs. Its `validate`
  accepts an (e-mail, username) pair that already belongs to one user. The
  insert that follows is then refused by the database's unique columns
  (`Accounts.SamePairPassesValidationButNotInsert`).
- **Joins keep their multiplicity.** The filters and the report are SQL
  joins without `distinct()`. A link row that appeared twice would repeat a
  recipe in the filtered list, or double its amounts in the report. The
  model keeps this (`Filters.DuplicateRowDuplicatesRecipe`). Lemmas show that
  over duplicate-free tables, which the toggles maintain, the joins reduce
  to plain filters.
- **String fields.** DRF's `CharField` strips surrounding whitespace before
  anything else, refuses a value that is then empty, and hands on the
  stripped value. The model follows this for the username, e-mail,
  password, recipe name and recipe text. `Text.Strip` uses the character set
  Python's `str.strip()` removes.
- **Images.** The recipe image arrives as a string. A `data:image` string is
  decoded into a file named `temp.<ext>`; the image field then refuses
  anything that is not a non-empty file holding an image whose name has an
  image extension. The stored recipe holds that file.
- **Parameters.** Today's date, the order of the report's groups, the
  base64 decoder, the password hasher, Pillow's image check (`isImage`), the
  set of image extensions Pillow knows (`knownExtension`) and
  the user and domain regular expressions of Django's `EmailValidator`
  (`emailParts`) are parameters of the functions that use them. The creation
  timestamp `now` is one as well.

## Model

| member | source | states |
|---|---|---|
| Text.SplitJoin | backend/api/serializers.py:30 | joining the pieces of `s.split(sep)` with `sep` gives back `s` |
| Text.JoinLast | backend/api/serializers.py:31 | a join with a separator ends with its last piece, which is the whole join or follows a separator |
| Text.LastPart | backend/api/serializers.py:31 | `s.split(sep)[-1]` is a suffix of `s` that holds no `sep` and follows either the start of `s` or a `sep` |
| Text.SplitAtSole | backend/api/serializers.py:30 | when the separator's first character occurs in neither part, `(a + sep + b).split(sep)` is exactly `[a, b]` |
| Text.NatStringRoundTrip | backend/api/views.py:107 | `str(n)` of a total reads back as `n` |
| Text.LastIndexOf | backend/api/serializers.py:72-75 | the position of the last occurrence of a character, none exactly when it does not occur |
| Text.Strip | backend/api/serializers.py:63-79 | the stripped value starts and ends with no whitespace and is no longer than the input |
| Text.StripIsPadded | backend/api/serializers.py:63-79 | the stripped value is a slice of the input with only whitespace before and after it |
| Text.StripUnique | backend/api/serializers.py:63-79 | any slice with only whitespace around it that itself neither starts nor ends with whitespace is the stripped value |
| Text.StripIgnoresPadding | backend/api/serializers.py:63-79 | adding whitespace around a value does not change its stripped value |
| Text.StripEmptyIffAllSpace | backend/api/serializers.py:63-79 | the stripped value is empty iff the input is all whitespace |
| Text.StripIdempotent | backend/api/serializers.py:63-79 | stripping twice is stripping once |
| Fields.CharField | backend/api/serializers.py:63-79 | a value is accepted iff, once stripped, it is non-empty, NUL-free and within the maximum length; the stripped value is handed on; an all-whitespace value fails as blank |
| Fields.CharFieldIgnoresPadding | backend/api/serializers.py:63-79 | whitespace around a value changes neither the verdict nor the value handed on |
| Fields.CharFieldIdempotent | backend/api/serializers.py:63-79 | an accepted value passes the field again unchanged |
| Fields.EmailField | backend/api/serializers.py:72-75 | an e-mail is accepted iff, once stripped, it is a valid `CharField` value within the maximum length (254 for the sign-up e-mail) with an '@' whose user and domain parts, cut at the last '@', the validator accepts |
| Fields.EmailCutsAtLastAt | backend/api/serializers.py:72-75 | the validator's cut at the last '@' is the only cut that leaves no '@' in the domain part |
| Fields.EmailNeedsAt | backend/api/serializers.py:72-75 | a value without '@' is never accepted |
| Links.Insert | backend/api/views.py:150 | `objects.create` adds one (a, b) row, leaves the count of every other row unchanged and keeps the old rows as a prefix |
| Links.Remove | backend/api/views.py:172-173 | `filter(...).delete()` removes every copy of (a, b) from the table's multiset of rows and nothing else: no (a, b) row is left, every other row's count is kept, and the table shrinks by the number of (a, b) rows |
| Links.InsertKeepsUnique | backend/api/views.py:150 | inserting an absent pair keeps a duplicate-free table duplicate-free |
| Links.RemoveKeepsUnique | backend/api/views.py:172-173 | deleting keeps a duplicate-free table duplicate-free |
| Links.RemovePresentShrinksByOne | backend/api/views.py:238 | in a duplicate-free table, deleting a present pair removes exactly one row |
| Links.RemoveAbsent | backend/api/views.py:238 | deleting an absent pair changes nothing |
| Links.RemoveUndoesInsert | backend/api/views.py:150-173 | deleting a pair right after inserting it, when it was absent, restores the table |
| Links.CountTarget | backend/recipes/models.py:111-113 | the number of rows pointing at a target is zero exactly when no row points at it |
| Links.CountTargetAppend | backend/recipes/models.py:111-113 | appending a row for a target raises its count by one, and by zero for any other target |
| Links.CountTargetRemove | backend/recipes/models.py:111-113 | deleting the (a, b) rows lowers b's count by their number |
| Links.Targets | backend/recipes/models.py:198-199 | the targets of an actor's rows are exactly those the actor is linked to, one per row at most |
| Links.TargetsAppend | backend/recipes/models.py:198-199 | a row appended to the table puts its target after the actor's earlier targets, so the targets come in row order |
| Store.RolesExclusive | backend/users/models.py:35-40 | `is_admin` holds iff the role is "admin", `is_user` iff it is "user", and never both |
| Store.NewUser | backend/users/models.py:19-24 | a new user takes the default role "user", so is neither admin nor superuser |
| Store.AuthoredBy | backend/users/models.py:42-44 | the user's recipes are exactly the recipes whose author is the user |
| Store.AuthoredByAppend | backend/users/models.py:42-44 | an author's recipes in two concatenated tables are the concatenation of each table's |
| Store.RecipesCountAfterAdd | backend/users/models.py:42-44 | adding a recipe raises its author's `recipes_count` by one and leaves every other user's unchanged |
| Store.CreateIngredient | backend/recipes/models.py:22-30 | an insert is refused exactly when the (name, unit) pair exists, and a successful insert keeps the pairs unique |
| Store.TotalFavoriteZero | backend/recipes/models.py:108-113 | `total_favorite` is zero exactly when no user has favourited the recipe |
| Store.LinesOf | backend/recipes/models.py:131-132 | a recipe's lines, in id order, are exactly the table's lines of that recipe |
| Store.LinesOfAppend | backend/recipes/models.py:131-132 | a recipe's lines in two concatenated tables are the concatenation of each table's |
| Store.LinesOfAbsent | backend/recipes/models.py:116-121 | a recipe no line refers to has no lines |
| Store.DropLinesOf | backend/api/serializers.py:253 | deleting a recipe's lines leaves it none and leaves every other recipe's lines as they were |
| Store.InsertByDate | backend/recipes/models.py:97-98 | inserting into a newest-first list keeps it newest first and adds exactly that recipe |
| Store.SortNewestFirst | backend/recipes/models.py:97-98 | the default ordering is newest first and a permutation of the table |
| Accounts.SearchUsernamePattern | backend/api/serializers.py:69 | the scan succeeds exactly when the whole string is one or more characters of `[\w.@+-]` |
| Accounts.ValidateUsername | backend/api/serializers.py:63-71 | the username is stripped first; it is accepted iff the stripped value has at most 150 characters and matches the pattern, and the stripped value is handed on; an over-long value fails with the length error |
| Accounts.AcceptedUsernameIsToken | backend/api/serializers.py:63-71 | an accepted username has 1 to 150 characters and no space, newline or '/' |
| Accounts.PaddedUsernameAccepted | backend/api/serializers.py:63-71 | whitespace around a username changes neither the verdict nor the stored name, so " bob" is accepted as "bob" |
| Accounts.ValidateFields | backend/api/serializers.py:63-79 | field validation passes iff the stripped e-mail is non-empty, NUL-free, at most 254 characters and splits at its last '@' into parts the e-mail validator accepts, the stripped username is accepted, and the stripped password is non-empty and NUL-free; the stripped values are handed on |
| Accounts.MalformedSignupRefused | backend/api/serializers.py:72-79 | an e-mail without '@' (such as "" or "x") or a whitespace-only password is refused |
| Accounts.FirstWithEmail | backend/api/serializers.py:94-96 | the first user with the e-mail, or none exactly when no user has it |
| Accounts.FirstWithUsername | backend/api/serializers.py:101 | the first user with the username, or none exactly when no user has it |
| Accounts.ValidateSignup | backend/api/serializers.py:93-109 | `validate` fails only with the e-mail or the username error; on success it keeps e-mail and username and hashes a non-empty password |
| Accounts.UniqueEmailOwner | backend/users/models.py:14-18 | with unique e-mails, two users with the same e-mail are the same user |
| Accounts.UniqueUsernameOwner | backend/users/models.py:5-18 | with unique usernames (the `username` column `AbstractUser` gives `User`), two users with the same username are the same user |
| Accounts.SignupRefusedIffConflict | backend/api/serializers.py:93-106 | with unique columns, `validate` refuses iff some user holds the e-mail with another username or the username with another e-mail |
| Accounts.SignupSamePairAccepted | backend/api/serializers.py:93-106 | re-submitting an existing user's exact (e-mail, username) pair is not a conflict |
| Accounts.CreateUser | backend/users/models.py:5-18 | the insert is refused iff some user has the e-mail (the unique `email` column) or the username (the unique `username` column of `AbstractUser`); otherwise exactly the new default-role user is appended |
| Accounts.CreateUserKeepsUnique | backend/users/models.py:5-18 | every successful insert keeps e-mails and usernames unique |
| Accounts.SamePairPassesValidationButNotInsert | backend/api/serializers.py:62-109 | an existing user's exact pair passes `validate` and is then refused by the insert |
| Accounts.Register | backend/api/serializers.py:93-109 | on validated fields, `validate` followed by the insert succeeds iff no user holds the e-mail or the username, and then appends exactly the new user, with the password hashed when it is non-empty |
| Accounts.SignupRequest | backend/api/serializers.py:62-109 | a sign-up succeeds iff the fields are valid and no user holds the stripped e-mail or the stripped username; on success there was no conflict, and exactly one user is appended, holding the stripped username and e-mail and the hash of the stripped password |
| Accounts.StoredPasswordIsHashed | backend/api/serializers.py:76-108 | after a successful sign-up the stored password is always the hash of the stripped password, the user has the default role, and both columns stay unique |
| Image.ToInternalValue | backend/api/serializers.py:28-33 | a value that is not a `data:image` string is handed on unchanged; only such strings fail; a decoded one becomes a file named `temp.`... |
| Image.PassThrough | backend/api/serializers.py:29-33 | an upload, or a string not starting with `data:image`, passes through unchanged |
| Image.MarkerCountMustBeOne | backend/api/serializers.py:30 | a `data:image` string without exactly one `;base64,` fails to unpack |
| Image.DataUriFileName | backend/api/serializers.py:29-32 | with one marker, the string is format + marker + payload, and the file is named `temp.` + the text after the last '/' of the format, holding the decoded payload |
| Image.DataUriRoundTrip | backend/api/serializers.py:29-32 | `data:image/<ext>;base64,<payload>` becomes the file `temp.<ext>` holding exactly the decoded bytes |
| Image.Extension | backend/api/serializers.py:220-223 | the extension the image field checks is `Path(name).suffix` without its dot: the dot-free tail after the last '.', which is never the name's first character; it is empty exactly when the name has no '.', ends with '.', or has its only '.' first |
| Image.TempNameExtension | backend/api/serializers.py:31-32 | the file `temp.<ext>` has the extension `ext` when `ext` is non-empty and dot-free |
| Permissions.WriteNeedsStaff | backend/api/permissions.py:7-12 | safe methods are always allowed; any other method is allowed iff the requester is authenticated and admin or superuser; anonymous and plain users are denied |
| Permissions.ObjectPermissionExtendsStaff | backend/api/permissions.py:18-24 | whoever passes the admin check passes the object check; a plain user may write exactly the objects they authored |
| Permissions.NewUserPermissions | backend/api/permissions.py:7-24 | a newly created user may not write through the admin check, and may write an object iff they authored it |
| Toggles.CheckFollow | backend/api/serializers.py:289-303 | POST is accepted iff not a self-follow and the follow is absent; DELETE iff not a self-follow and the follow is present; other methods pass the pair through |
| Toggles.FollowCreate | backend/api/views.py:138-152 | follow succeeds iff the followed user exists, differs from the follower and is not yet followed, and then adds exactly that row |
| Toggles.FollowDestroy | backend/api/views.py:160-174 | unfollow succeeds iff the followed user exists, differs from the follower and is followed; the pair is then absent and every other row is unchanged |
| Toggles.SelfFollowAlwaysFails | backend/api/serializers.py:293-300 | following or unfollowing oneself fails in every store |
| Toggles.FollowRoundTrip | backend/api/views.py:138-174 | a second follow fails, and a follow then an unfollow restores the store |
| Toggles.FollowKeepsInvariant | backend/api/views.py:138-174 | follow and unfollow keep the follow table duplicate-free and free of self-links |
| Toggles.CheckNewRecipeLink | backend/api/serializers.py:361-366 | favourite and cart validation refuses exactly when the (user, recipe) row exists |
| Toggles.RecipeLinkCreate | backend/api/views.py:201-222 | favourite or cart create succeeds iff the recipe exists and the row does not, and then adds exactly that row; the cart create at views.py:253-274 is the same |
| Toggles.RecipeLinkDestroy | backend/api/views.py:230-242 | favourite or cart delete succeeds iff the recipe exists and the row is present; a missing recipe gives the same error as a missing row; only that pair is removed |
| Toggles.DestroyFailsIffAbsent | backend/api/views.py:282-294 | when every row points at an existing recipe, delete fails exactly when the row is absent |
| Toggles.RecipeLinkRoundTrip | backend/api/views.py:253-294 | a second create fails, a delete after the create restores the store, and a delete beforehand fails |
| Toggles.DestroyTwiceFails | backend/api/views.py:282-294 | a second delete of the same pair fails |
| Toggles.RecipeLinkKeepsUnique | backend/api/serializers.py:378-383 | favourite and cart create and delete keep their tables duplicate-free |
| Toggles.FavoriteDerivedFields | backend/recipes/models.py:108-113 | after a favourite `is_favorited` holds and `total_favorite` is one higher; after an unfavourite it does not, and the count is one lower |
| Toggles.CartDerivedField | backend/recipes/models.py:105-106 | `is_in_shopping_cart` holds after a cart add and not after a cart delete |
| Aggregate.CheckRange | backend/api/serializers.py:225-228 | a cooking time or amount is accepted iff 1 <= v <= 32000, and is kept as given |
| Aggregate.AcceptedValueFitsColumn | backend/recipes/models.py:126-129 | every accepted value meets the model's minimum of 1 and fits a positive small-integer column |
| Aggregate.CheckEntries | backend/api/serializers.py:202-208 | the nested ingredient list is accepted iff every amount is in 1..32000, and is kept as given |
| Aggregate.ValidatePayload | backend/api/serializers.py:218-239 | a payload is accepted iff every field is present (unless the request is partial), the tags given are a non-empty set of existing tag ids, the stripped name is non-empty, NUL-free and at most 200 characters, the stripped text is non-empty and NUL-free, the image passes the image field, and the cooking time and amounts given are in range; tags, ingredients and cooking time are kept, name and text are replaced by their stripped values, and the image by the file the image field produced |
| Aggregate.CheckTags | backend/recipes/models.py:62-65 | the tag list is accepted iff it is non-empty and every id names a Tag row |
| Aggregate.CheckName | backend/recipes/models.py:77-80 | the name is accepted iff, once stripped, it is non-empty, NUL-free and at most 200 characters; the stripped name is handed on |
| Aggregate.CheckText | backend/recipes/models.py:85-87 | the text is accepted iff, once stripped, it is non-empty and NUL-free; the stripped text is handed on |
| Aggregate.BlankNameOrTextRefused | backend/recipes/models.py:77-87 | a whitespace-only name or text makes the payload invalid |
| Aggregate.CheckImage | backend/api/serializers.py:220-223 | the image is accepted iff the data-URI conversion yields a file that is non-empty, holds an image and has a name whose extension is an image extension; the accepted value is that file, named `temp.`... |
| Aggregate.PlainTextImageRefused | backend/api/serializers.py:28-33 | a string that is not a `data:image` URI is not a file and is refused |
| Aggregate.DataUriImageAccepted | backend/api/serializers.py:28-33 | `data:image/<ext>;base64,<payload>` whose `ext` is a dot-free image extension and whose decoded bytes are a non-empty image becomes the file `temp.<ext>` holding those bytes |
| Aggregate.UnknownExtensionRefused | backend/api/serializers.py:28-33 | a data URI whose bytes are an image is still refused when `ext` is not an image extension, such as `x-icon` |
| Aggregate.TagsMustExist | backend/recipes/models.py:62-65 | a payload with an empty tag list, or with a tag id no Tag row has, is refused |
| Aggregate.MalformedImageRefused | backend/api/serializers.py:28-33 | a `data:image` value whose `;base64,` marker does not occur exactly once makes the payload invalid |
| Aggregate.ResolveLines | backend/api/functions.py:12-23 | the loop succeeds iff every entry names an existing ingredient, and then builds one line per entry, in order, with the amount copied and the recipe set |
| Aggregate.BuiltLinesBelongTo | backend/api/functions.py:18-22 | the built lines all belong to the given recipe and to no other |
| Aggregate.AddingIngredients | backend/api/functions.py:8-24 | either every line is appended or nothing is; the table only grows; duplicate entries give separate lines; other recipes' lines are untouched |
| Aggregate.Create | backend/api/serializers.py:241-247 | create always appends the recipe row; it succeeds iff every ingredient resolves, and then appends exactly the built lines; on failure the lines are as before |
| Aggregate.NoLinesOfFreshId | backend/api/serializers.py:244 | a freshly allocated recipe id has no lines yet |
| Aggregate.CreateAttachesExactly | backend/api/serializers.py:241-247 | a created recipe carries exactly the given tags and exactly one line per entry, in order, and its author's count is one higher |
| Aggregate.FindOthersAfterUpdate | backend/api/serializers.py:249-255 | when the change keeps ids, looking up any other id after it finds what it found before |
| Aggregate.FindAfterUpdate | backend/api/serializers.py:252-255 | looking the recipe up after the change finds the changed recipe |
| Aggregate.Update | backend/api/serializers.py:249-255 | update fails on a missing recipe or key without writing; it succeeds iff every ingredient resolves; the recipe then has exactly the new lines and no old ones, and other recipes are untouched |
| Aggregate.UpdateSetsRecipe | backend/api/serializers.py:249-255 | after a successful update the recipe keeps its id, author and publication date, has exactly the new tags, and has the name, image file, text and cooking time the validated payload gave (the old value where the payload left a field out) |
| Aggregate.ValidatedUpdateStores | backend/api/serializers.py:218-255 | after a validated, successful update the recipe holds the stripped name and text and the decoded image file (named `temp.`..., non-empty, an image, with an image extension) the request gave, and the new tags |
| Aggregate.ValidatedCreateStores | backend/api/serializers.py:218-247 | a validated create request is complete, and the recipe it appends holds the author, the stripped name and text, the decoded image file (with an image extension), the cooking time and the tags the request gave |
| Aggregate.UpdateFailureIsPartial | backend/api/serializers.py:252-254 | when an ingredient does not resolve, update fails after replacing the tags and deleting every line |
| Aggregate.CreateFailureLeavesEmptyRecipe | backend/api/serializers.py:244-246 | when an ingredient does not resolve, create fails but leaves a recipe row with no lines |
| Aggregate.FindRecipeAppended | backend/api/serializers.py:244 | a recipe appended with a fresh id is found by that id |
| Aggregate.CreateKeepsIdsBelowCounter | backend/api/serializers.py:241-247 | create keeps every recipe id and every line's recipe below the id counter |
| Aggregate.UpdateKeepsIdsBelowCounter | backend/api/serializers.py:249-255 | update keeps every recipe id and every line's recipe below the id counter |
| Report.SumForAbsent | backend/api/views.py:102-105 | a key with no rows sums to zero |
| Report.Totals | backend/api/views.py:102-105 | the groups are exactly the distinct (name, unit) pairs of the joined rows, and each group's total is the sum of its rows' amounts |
| Report.SumForAppend | backend/api/views.py:102-105 | sums add up over concatenated row lists |
| Report.SumForPermutation | backend/api/views.py:102-105 | a key's sum depends only on the multiset of rows |
| Report.TotalsIgnoreOrder | backend/api/views.py:102-105 | the grouped totals do not depend on the order the join returns rows in |
| Report.ItemLineFormat | backend/api/views.py:106-114 | each list line is name, total and unit separated by single spaces, ended by a newline |
| Report.DistinctLength | backend/api/views.py:102-105 | listing each group once gives as many groups as distinct keys |
| Report.OneLinePerKey | backend/api/views.py:102-114 | the list has exactly one line per distinct (name, unit), each carrying that key's summed amount |
| Report.CartRecipeNamesFollowRows | backend/api/views.py:99-101 | the header names one recipe per cart row of the user, in row order |
| Report.ShoppingList | backend/api/views.py:97-116 | the text is the header, then exactly one line per distinct (name, unit) among the user's cart rows (as many lines as distinct keys) carrying that key's amount summed directly over the rows, then the footer |
| Report.ShoppingListFrame | backend/api/views.py:110-116 | the text starts with the user and the cart's recipe names joined by ", ", and ends with "\nFoodgram\n" and the date |
| Report.CartItemsAppend | backend/api/views.py:103 | a new cart row appends its recipe's lines to the owner's joined rows |
| Report.CartAddRaisesTotals | backend/api/views.py:102-105 | adding a recipe to the cart raises each total of the owner's list by that recipe's amounts and leaves other users' lists unchanged |
| Report.FlourExample | backend/api/views.py:102-114 | flour in grams, 200 g and 300 g from two recipes, gives the single line "Мука 500 г" |
| Filters.Repeat | backend/api/filters.py:38 | n copies of a recipe |
| Filters.RepeatMultiset | backend/api/filters.py:38 | n copies hold the recipe exactly n times |
| Filters.FilterByLink | backend/api/filters.py:36-46 | the join keeps exactly the recipes of the input the user is linked to, and nothing else |
| Filters.FilterByLinkMultiplicity | backend/api/filters.py:38 | each recipe is kept once per matching link row |
| Filters.FilterByLinkUnique | backend/api/filters.py:36-46 | over a duplicate-free link table the join is the plain filter, in input order |
| Filters.FilterByLinkShrinks | backend/api/filters.py:36-46 | over a duplicate-free link table the result is a sub-multiset of the input |
| Filters.FilterIsFavorited | backend/api/filters.py:36-40 | true keeps exactly the recipes the user has favourited; false returns the input; the result is always within the input |
| Filters.FilterIsInShoppingCart | backend/api/filters.py:42-46 | true keeps exactly the recipes in the user's cart; false returns the input; the result is always within the input |
| Filters.FavoritedIsPlainFilter | backend/api/filters.py:36-40 | with duplicate-free favourites, `is_favorited=true` is the plain filter and a sub-multiset of the input |
| Filters.InCartIsPlainFilter | backend/api/filters.py:42-46 | with a duplicate-free cart, `is_in_shopping_cart=true` is the plain filter and a sub-multiset of the input |
| Filters.DuplicateRowDuplicatesRecipe | backend/api/filters.py:38 | a favourite row present twice makes the recipe appear twice |

## Left out

- URL routing (`urls.py`) and the admin configuration (`admin.py`) are outside the core.
- The CSV import command is file I/O.
- The read-side serializers only shape responses. `RecipeSerializer`,
  `AuthorSerializer`, `RecipeShortSerializer` and `get_is_subscribed` are not
  modelled, beyond the derived fields they read.
- The list and retrieve views, `follows_list`, and pagination are not
  modelled, and neither are HTTP status codes or response objects.
- Recipe deletion and cascading deletes are not part of this model.
- Real base64 decoding is left out: the decoder is a parameter (`decode`).
- Aggregate.CheckImage: whether the bytes are an image is Pillow's decision,
  so it is the parameter `isImage`; the list of image extensions Pillow
  registers is the parameter `knownExtension`, which receives the extension
  before the framework lower-cases it.
- Aggregate.ValidatePayload: the image arrives as a string, as in a JSON
  request; multipart uploads, which reach the field as files, are not
  modelled.
- The `upload_to='recipes/images/'` storage path of the recipe image, and the
  renaming of a file name already taken in storage, are file-system I/O; the
  stored recipe holds the uploaded file itself.
- `make_password` is a parameter (`hash`).
- `datetime.date.today()` and the creation timestamp are parameters.
- The `tags` and `author` filters of `RecipeFilter` are not modelled; only the two boolean filters are.
- Accounts.ValidateFields: the user-part and domain-part regular expressions
  of Django's `EmailValidator`, its domain allow-list and IDNA re-encoding
  of the domain are the parameter `emailParts`; the model fixes only the '@'
  and the cut at the last '@'.
- Fields.CharField: DRF also refuses lone surrogate code points. A Dafny
  `char` is a Unicode scalar value, so no surrogate can occur in the model.
- DRF collects every field error before reporting. The model stops at the
  first failing check, so the reported error can differ, but acceptance is
  the same.
- Concurrency, and the `transaction.atomic` decorators on the toggle views,
  are not modelled. Each toggle writes one row, so a transaction changes
  nothing there.
- `IsAuthorStaffOrReadOnly` on an anonymous user is not modelled: it would
  read `is_admin` off Django's anonymous user, which is framework behaviour.
- Foreign keys are not enforced by the store. The report joins lines with
  their ingredients and cart rows with their recipes as inner joins. A
  dangling reference, which the database rules out, yields no row.
- The order of the report's groups is the database's. It is a parameter
  (`order`), required to list each group exactly once.
- Accounts.MatchesUsernamePattern: `\w` is taken as the ASCII letters, digits and underscore. Python's Unicode `\w` also admits non-ASCII letters and digits, so the model accepts fewer usernames than the source.
- Accounts.SearchUsernamePattern: inherits the ASCII reading of `\w` above.
- Accounts.ValidateUsername: inherits the ASCII reading of `\w` above.

=== FILE: accounts.dfy ===
/** Account creation (`UserCreateSerializer`): the username field's validators,
    the e-mail/username binding rule of `validate`, and the insert that
    follows it.
 */
module Accounts {
  import opened Results
  import opened Store
  import opened Text
  import opened Fields

  const UsernameMaxLength := 150
  const EmailMaxLength := 254

  /** Word characters of the pattern's `\w` (the ASCII ones; see README). */
  predicate IsWordChar(c: char) {
    ('a' <= c <= 'z') || ('A' <= c <= 'Z') || ('0' <= c <= '9') || c == '_'
  }

  /** A member of the character class `[\w.@+-]`. */
  predicate IsUsernameChar(c: char) {
    IsWordChar(c) || c == '.' || c == '@' || c == '+' || c == '-'
  }

  /** The whole string is matched by `^[\w.@+-]+\Z`. */
  predicate MatchesUsernamePattern(s: string) {
    |s| >= 1 && forall i | 0 <= i < |s| :: IsUsernameChar(s[i])
  }

  /** The regular-expression search for `^[\w.@+-]+\Z`, as a left-to-right scan:
      the `+` loop consumes class characters, and `\Z` then demands the end. */
  method SearchUsernamePattern(s: string) returns (matched: bool)
    ensures matched <==> MatchesUsernamePattern(s)
  {
    var i := 0;
    while i < |s| && IsUsernameChar(s[i])
      invariant 0 <= i <= |s|
      invariant forall k | 0 <= k < i :: IsUsernameChar(s[k])
    {
      i := i + 1;
    }
    matched := i >= 1 && i == |s|;
  }

  /** The username field: a `CharField(max_length=150)` whose validators add
      the pattern.  The stripped value is the one checked and handed on. */
  function ValidateUsername(s: string): (r: Result<string>)
    ensures r.Ok? <==> |Strip(s)| <= UsernameMaxLength && MatchesUsernamePattern(Strip(s))
    ensures r.Ok? ==> r.value == Strip(s)
    ensures |Strip(s)| > UsernameMaxLength ==> r == Err(TooLong(Username))
  {
    PatternExcludesNul(Strip(s));
    var t :- CharField(s, Username, Some(UsernameMaxLength));
    if !MatchesUsernamePattern(t) then Err(InvalidUsername) else Ok(t)
  }

  lemma PatternExcludesNul(t: string)
    ensures MatchesUsernamePattern(t) ==> t != "" && Nul !in t
  {
  }

  /** Whitespace around a username is dropped: `" bob"` is taken as `"bob"`. */
  lemma PaddedUsernameAccepted(a: string, s: string, b: string)
    requires AllSpace(a) && AllSpace(b)
    ensures ValidateUsername(a + s + b) == ValidateUsername(s)
  {
    CharFieldIgnoresPadding(a, s, b, Username, Some(UsernameMaxLength));
  }

  /** An accepted username holds no whitespace and no '/': it is one token. */
  lemma AcceptedUsernameIsToken(s: string)
    requires ValidateUsername(s).Ok?
    ensures var t := ValidateUsername(s).value;
      ' ' !in t && '\n' !in t && '/' !in t && 1 <= |t| <= 150
  {
    PatternIsToken(ValidateUsername(s).value);
  }

  lemma PatternIsToken(t: string)
    requires MatchesUsernamePattern(t)
    ensures ' ' !in t && '\n' !in t && '/' !in t
  {
    forall c | c in t ensures c != ' ' && c != '\n' && c != '/' {
      var i :| 0 <= i < |t| && t[i] == c;
      assert IsUsernameChar(t[i]);
    }
  }

  /** The attributes of a sign-up request. */
  datatype Signup = Signup(email: string, username: string, password: string)

  /** Field-level validation of the sign-up request, which runs before
      `validate`, in the order the fields are declared: the e-mail
      (`EmailField(max_length=254)`, whose user and domain rules are
      `emailParts`), the username, and the password, a plain `CharField`.
      Each field strips its value, and the stripped values go on. */
  function ValidateFields(a: Signup, emailParts: (string, string) -> bool): (r: Result<Signup>)
    ensures r.Ok? <==>
      var e, n, p := Strip(a.email), Strip(a.username), Strip(a.password);
      && e != "" && Nul !in e && |e| <= EmailMaxLength
      && (exists i | 0 <= i < |e| :: e[i] == '@' && '@' !in e[i + 1..] && emailParts(e[..i], e[i + 1..]))
      && |n| <= UsernameMaxLength && MatchesUsernamePattern(n)
      && p != "" && Nul !in p
    ensures r.Ok? ==> r.value == Signup(Strip(a.email), Strip(a.username), Strip(a.password))
  {
    var email :- EmailField(a.email, EmailMaxLength, emailParts);
    var username :- ValidateUsername(a.username);
    var password :- CharField(a.password, Password, None);
    Ok(Signup(email, username, password))
  }

  /** Blank and '@'-less e-mails, and whitespace-only passwords, are refused. */
  lemma MalformedSignupRefused(a: Signup, emailParts: (string, string) -> bool)
    requires '@' !in a.email || AllSpace(a.password)
    ensures ValidateFields(a, emailParts).Err?
  {
    if '@' !in a.email {
      EmailNeedsAt(a.email, EmailMaxLength, emailParts);
    } else {
      StripEmptyIffAllSpace(a.password);
    }
  }

  /** `User.objects.filter(email=e).first()` (the table is ordered by id). */
  function FirstWithEmail(users: seq<User>, email: string): (r: Option<User>)
    ensures r.Some? ==> r.value in users && r.value.email == email
    ensures r.Some? ==> exists i | 0 <= i < |users| ::
      users[i] == r.value && forall j | 0 <= j < i :: users[j].email != email
    ensures r.None? <==> forall u | u in users :: u.email != email
  {
    if |users| == 0 then None
    else if users[0].email == email then Some(users[0])
    else FirstWithEmail(users[1..], email)
  }

  /** `User.objects.filter(username=n).first()` */
  function FirstWithUsername(users: seq<User>, username: string): (r: Option<User>)
    ensures r.Some? ==> r.value in users && r.value.username == username
    ensures r.Some? ==> exists i | 0 <= i < |users| ::
      users[i] == r.value && forall j | 0 <= j < i :: users[j].username != username
    ensures r.None? <==> forall u | u in users :: u.username != username
  {
    if |users| == 0 then None
    else if users[0].username == username then Some(users[0])
    else FirstWithUsername(users[1..], username)
  }

  /** `UserCreateSerializer.validate`.  The password is hashed by `hash`
      (Django's `make_password`) when it is non-empty. */
  function ValidateSignup(users: seq<User>, a: Signup, hash: string -> string): (r: Result<Signup>)
    ensures r.Ok? ==> r.value.email == a.email && r.value.username == a.username
    ensures r.Ok? ==> r.value.password == (if a.password != "" then hash(a.password) else a.password)
    ensures r.Err? ==> r.error == EmailNotUnique || r.error == UsernameNotUnique
  {
    var byEmail := FirstWithEmail(users, a.email);
    if byEmail.Some? && byEmail.value.username != a.username then Err(EmailNotUnique)
    else
      var byName := FirstWithUsername(users, a.username);
      if byName.Some? && byName.value.email != a.email then Err(UsernameNotUnique)
      else Ok(a.(password := if a.password != "" then hash(a.password) else a.password))
  }

  /** Some existing user is bound to the e-mail or to the username, but not to both. */
  predicate Conflicts(users: seq<User>, email: string, username: string) {
    exists u | u in users ::
      (u.email == email && u.username != username) || (u.username == username && u.email != email)
  }

  lemma UniqueEmailOwner(users: seq<User>, u: User, v: User)
    requires EmailsUnique(users) && u in users && v in users && u.email == v.email
    ensures u == v
  {
    var i :| 0 <= i < |users| && users[i] == u;
    var j :| 0 <= j < |users| && users[j] == v;
  }

  lemma UniqueUsernameOwner(users: seq<User>, u: User, v: User)
    requires UsernamesUnique(users) && u in users && v in users && u.username == v.username
    ensures u == v
  {
    var i :| 0 <= i < |users| && users[i] == u;
    var j :| 0 <= j < |users| && users[j] == v;
  }

  /** With both columns unique, sign-up is refused exactly when the request
      conflicts with an existing user's binding. */
  lemma SignupRefusedIffConflict(users: seq<User>, a: Signup, hash: string -> string)
    requires EmailsUnique(users) && UsernamesUnique(users)
    ensures ValidateSignup(users, a, hash).Err? <==> Conflicts(users, a.email, a.username)
  {
    var byEmail := FirstWithEmail(users, a.email);
    var byName := FirstWithUsername(users, a.username);
    if Conflicts(users, a.email, a.username) {
      var u :| u in users &&
        ((u.email == a.email && u.username != a.username) || (u.username == a.username && u.email != a.email));
      if u.email == a.email {
        UniqueEmailOwner(users, u, byEmail.value);
      } else {
        UniqueUsernameOwner(users, u, byName.value);
      }
    }
  }

  /** Re-submitting the (e-mail, username) pair of an existing user is not a
      conflict: validation accepts it. */
  lemma SignupSamePairAccepted(users: seq<User>, a: Signup, hash: string -> string)
    requires EmailsUnique(users) && UsernamesUnique(users)
    requires exists u | u in users :: u.email == a.email && u.username == a.username
    ensures ValidateSignup(users, a, hash).Ok?
  {
    var u :| u in users && u.email == a.email && u.username == a.username;
    if Conflicts(users, a.email, a.username) {
      var v :| v in users &&
        ((v.email == a.email && v.username != a.username) || (v.username == a.username && v.email != a.email));
      if v.email == a.email {
        UniqueEmailOwner(users, u, v);
      } else {
        UniqueUsernameOwner(users, u, v);
      }
    }
    SignupRefusedIffConflict(users, a, hash);
  }

  /** The insert after validation (`User.objects.create`): the database's unique
      e-mail and username columns refuse a second row with either value. */
  function CreateUser(s: Store, a: Signup): (r: Result<Store>)
    ensures r.Err? <==> exists u | u in s.users :: u.email == a.email || u.username == a.username
    ensures r.Ok? ==> r.value.users == s.users + [NewUser(s.nextUserId, a.username, a.email, a.password)]
    ensures r.Ok? ==> r.value.recipes == s.recipes && r.value.lines == s.lines
  {
    if exists u | u in s.users :: u.email == a.email || u.username == a.username then Err(IntegrityError)
    else Ok(s.(users := s.users + [NewUser(s.nextUserId, a.username, a.email, a.password)],
               nextUserId := s.nextUserId + 1))
  }

  /** Every successful insert keeps e-mails and usernames unique. */
  lemma CreateUserKeepsUnique(s: Store, a: Signup)
    requires EmailsUnique(s.users) && UsernamesUnique(s.users)
    requires CreateUser(s, a).Ok?
    ensures EmailsUnique(CreateUser(s, a).value.users)
    ensures UsernamesUnique(CreateUser(s, a).value.users)
  {
    var us := CreateUser(s, a).value.users;
    forall i, j | 0 <= i < j < |us|
      ensures us[i].email != us[j].email && us[i].username != us[j].username
    {
      if j == |us| - 1 {
        assert us[i] in s.users;
      }
    }
  }

  /** The identical-pair re-submission passes validation, yet the insert that
      follows is refused by the unique columns: the serializer declares both
      fields itself, so no unique-field validator runs before the insert. */
  lemma SamePairPassesValidationButNotInsert(s: Store, a: Signup, hash: string -> string)
    requires EmailsUnique(s.users) && UsernamesUnique(s.users)
    requires exists u | u in s.users :: u.email == a.email && u.username == a.username
    ensures ValidateSignup(s.users, a, hash).Ok?
    ensures CreateUser(s, ValidateSignup(s.users, a, hash).value) == Err(IntegrityError)
  {
    SignupSamePairAccepted(s.users, a, hash);
  }

  /** `validate` followed by the insert, on already validated fields: it
      succeeds exactly when neither the e-mail nor the username is taken. */
  function Register(s: Store, fields: Signup, hash: string -> string): (r: Result<Store>)
    ensures r.Ok? <==> forall u | u in s.users :: u.email != fields.email && u.username != fields.username
    ensures r.Ok? ==> r.value.users == s.users + [NewUser(s.nextUserId, fields.username, fields.email,
                                                          if fields.password != "" then hash(fields.password)
                                                          else fields.password)]
  {
    var checked :- ValidateSignup(s.users, fields, hash);
    CreateUser(s, checked)
  }

  /** The whole sign-up: field validation, `validate`, then the insert. */
  function SignupRequest(s: Store, a: Signup, hash: string -> string, emailParts: (string, string) -> bool)
    : (r: Result<Store>)
    ensures r.Ok? <==> && ValidateFields(a, emailParts).Ok?
                       && forall u | u in s.users :: u.email != Strip(a.email) && u.username != Strip(a.username)
    ensures r.Ok? ==> ValidateFields(a, emailParts).Ok? && !Conflicts(s.users, Strip(a.email), Strip(a.username))
    ensures r.Ok? ==> r.value.users == s.users + [NewUser(s.nextUserId, Strip(a.username), Strip(a.email),
                                                          hash(Strip(a.password)))]
  {
    var fields :- ValidateFields(a, emailParts);
    Register(s, fields, hash)
  }

  /** Once the field validation has passed, the password is never empty, so
      the stored password is always the hash: the branch of `validate` that
      keeps an empty password is never taken. */
  lemma StoredPasswordIsHashed(s: Store, a: Signup, hash: string -> string, emailParts: (string, string) -> bool)
    requires EmailsUnique(s.users) && UsernamesUnique(s.users)
    requires SignupRequest(s, a, hash, emailParts).Ok?
    ensures var us := SignupRequest(s, a, hash, emailParts).value.users;
      us[|us| - 1].password == hash(Strip(a.password)) && IsUser(us[|us| - 1])
    ensures EmailsUnique(SignupRequest(s, a, hash, emailParts).value.users)
    ensures UsernamesUnique(SignupRequest(s, a, hash, emailParts).value.users)
  {
    var fields := ValidateFields(a, emailParts).value;
    var checked := ValidateSignup(s.users, fields, hash).value;
    CreateUserKeepsUnique(s, checked);
  }
}

=== FILE: aggregate.dfy ===
/** The recipe aggregate write: payload validation, `adding_ingredients`, and
    `RecipeCreateSerializer.create` / `update`.

    Neither create nor update runs inside a transaction, so a failure part-way
    leaves the writes made so far in the store.  Each operation therefore
    returns an `Effect`: the store after the call together with its outcome.
 */
module Aggregate {
  import opened Results
  import opened Store
  import opened Fields
  import Image
  import Text

  const MinValue := 1       // COOKING_TIME_ANF_AMOUNT_MIN
  const MaxValue := 32000   // COOKING_TIME_ANF_AMOUNT_MAX
  const SmallIntMax := 32767  // upper end of a PositiveSmallIntegerField
  const NameMaxLength := 200  // Recipe.name max_length

  /** The serializers' `IntegerField(min_value=1, max_value=32000)`. */
  function CheckRange(v: int, field: Field): (r: Result<int>)
    ensures r.Ok? <==> MinValue <= v <= MaxValue
    ensures r.Ok? ==> r.value == v
    ensures r.Err? ==> r.error == OutOfRange(field)
  {
    if v < MinValue || v > MaxValue then Err(OutOfRange(field)) else Ok(v)
  }

  /** A value the serializer accepts also satisfies the model field: the
      `MinValueValidator(1)` and the small-integer column's range. */
  lemma AcceptedValueFitsColumn(v: int, field: Field)
    requires CheckRange(v, field).Ok?
    ensures 1 <= v <= SmallIntMax
  {
  }

  /** One element of the payload's `ingredients` list. */
  datatype IngredientEntry = IngredientEntry(id: int, amount: int)

  /** The recipe payload; a field is None when the request left it out.  The
      request carries the image as text (`Img` is `string`); the validated
      payload carries the file made from it (`Img` is `Image.File`). */
  datatype RecipePayload<Img> = RecipePayload(
    tags: Option<set<nat>>,
    ingredients: Option<seq<IngredientEntry>>,
    name: Option<string>,
    image: Option<Img>,
    text: Option<string>,
    cookingTime: Option<int>)

  predicate Complete<Img>(p: RecipePayload<Img>) {
    p.tags.Some? && p.ingredients.Some? && p.name.Some? && p.image.Some?
    && p.text.Some? && p.cookingTime.Some?
  }

  predicate AmountsInRange(es: seq<IngredientEntry>) {
    forall i | 0 <= i < |es| :: MinValue <= es[i].amount <= MaxValue
  }

  /** The nested `RecipeIngredientCreateSerializer(many=True)`: every amount is range-checked. */
  function CheckEntries(es: seq<IngredientEntry>): (r: Result<seq<IngredientEntry>>)
    ensures r.Ok? <==> AmountsInRange(es)
    ensures r.Ok? ==> r.value == es
    ensures r.Err? ==> r.error == OutOfRange(Amount)
  {
    if |es| == 0 then Ok(es)
    else
      var _ :- CheckRange(es[0].amount, Amount);
      var rest :- CheckEntries(es[1..]);
      assert es == [es[0]] + es[1..];
      Ok(es)
  }

  /** The ids of the Tag rows: the queryset of the `tags` primary-key field. */
  function TagIds(s: Store): set<nat> {
    set t | t in s.tags :: t.id
  }

  /** `tags`: a `PrimaryKeyRelatedField(many=True)` over a relation without
      `blank=True`, so the list may not be empty and every id must name a tag. */
  function CheckTags(s: Store, tags: set<nat>): (r: Result<set<nat>>)
    ensures r.Ok? <==> tags != {} && forall t | t in tags :: exists x | x in s.tags :: x.id == t
    ensures r.Ok? ==> r.value == tags
  {
    if tags == {} then Err(Blank(RecipeTags))
    else if tags <= TagIds(s) then Ok(tags)
    else Err(UnknownTag)
  }

  /** `name`: the model's `CharField(max_length=200)` as a serializer field. */
  function CheckName(name: string): (r: Result<string>)
    ensures r.Ok? <==> var t := Text.Strip(name); t != "" && Nul !in t && |t| <= NameMaxLength
    ensures r.Ok? ==> r.value == Text.Strip(name)
  {
    CharField(name, RecipeName, Some(NameMaxLength))
  }

  /** `text`: the model's `TextField`, a serializer `CharField` without a maximum. */
  function CheckText(text: string): (r: Result<string>)
    ensures r.Ok? <==> var t := Text.Strip(text); t != "" && Nul !in t
    ensures r.Ok? ==> r.value == Text.Strip(text)
  {
    CharField(text, RecipeText, None)
  }

  /** `image`: `Base64ImageField`.  After the data-URI conversion the
      framework's `ImageField` takes over: a value that is still a string is
      not a file, an empty file is refused, the content must be an image,
      which is the parameter `isImage` (the framework's Pillow check), and
      the file name's extension must be one the image library knows
      (`validate_image_file_extension`), the parameter `knownExtension`. */
  function CheckImage(data: string, decode: string -> Option<seq<Image.Byte>>, isImage: seq<Image.Byte> -> bool,
    knownExtension: string -> bool)
    : (r: Result<Image.File>)
    ensures r.Ok? <==> var v := Image.ToInternalValue(Image.ImageInput.Text(data), decode);
      && v.Ok? && v.value.Upload? && |v.value.file.content| > 0 && isImage(v.value.file.content)
      && knownExtension(Image.Extension(v.value.file.name))
    ensures r.Ok? ==> Image.ToInternalValue(Image.ImageInput.Text(data), decode)
                      == Ok(Image.ImageInput.Upload(r.value))
    ensures r.Ok? ==> Text.StartsWith(r.value.name, "temp.")
  {
    var v :- Image.ToInternalValue(Image.ImageInput.Text(data), decode);
    if !v.Upload? then Err(NotAFile)
    else if |v.file.content| == 0 then Err(EmptyFile)
    else if !isImage(v.file.content) then Err(NotAnImage)
    else if !knownExtension(Image.Extension(v.file.name)) then Err(UnknownExtension)
    else Ok(v.file)
  }

  /** A string that is not a data URI reaches the framework's field as a
      string, which is not a file. */
  lemma PlainTextImageRefused(data: string, decode: string -> Option<seq<Image.Byte>>, isImage: seq<Image.Byte> -> bool,
    knownExtension: string -> bool)
    requires !Text.StartsWith(data, Image.DataImagePrefix)
    ensures CheckImage(data, decode, isImage, knownExtension) == Err(NotAFile)
  {
    Image.PassThrough(Image.ImageInput.Text(data), decode);
  }

  /** A data URI `data:image/<ext>;base64,<payload>` whose payload decodes to
      a non-empty image becomes the file `temp.<ext>` holding those bytes. */
  lemma DataUriImageAccepted(ext: string, payload: string, bytes: seq<Image.Byte>,
                             decode: string -> Option<seq<Image.Byte>>, isImage: seq<Image.Byte> -> bool,
    knownExtension: string -> bool)
    requires forall c | c in payload :: Image.IsBase64Char(c)
    requires '/' !in ext && ';' !in ext && '.' !in ext && ext != "" && knownExtension(ext)
    requires decode(payload) == Some(bytes) && |bytes| > 0 && isImage(bytes)
    ensures CheckImage("data:image/" + ext + ";base64," + payload, decode, isImage, knownExtension)
         == Ok(Image.File("temp." + ext, bytes))
  {
    Image.DataUriRoundTrip(ext, payload, bytes, decode);
    Image.TempNameExtension(ext);
  }

  /** A data URI that decodes to an image is still refused when its
      extension is not one the image library knows: `data:image/x-icon;...`
      gives the file `temp.x-icon`, whose extension `x-icon` is checked. */
  lemma UnknownExtensionRefused(ext: string, payload: string, bytes: seq<Image.Byte>,
                                decode: string -> Option<seq<Image.Byte>>, isImage: seq<Image.Byte> -> bool,
    knownExtension: string -> bool)
    requires forall c | c in payload :: Image.IsBase64Char(c)
    requires '/' !in ext && ';' !in ext && '.' !in ext && ext != "" && !knownExtension(ext)
    requires decode(payload) == Some(bytes) && |bytes| > 0 && isImage(bytes)
    ensures CheckImage("data:image/" + ext + ";base64," + payload, decode, isImage, knownExtension)
         == Err(UnknownExtension)
  {
    Image.DataUriRoundTrip(ext, payload, bytes, decode);
    Image.TempNameExtension(ext);
  }

  /** A field the request may leave out is checked only when it is given. */
  function CheckGiven<T, U>(o: Option<T>, check: T -> Result<U>): (r: Result<Option<U>>)
    ensures r.Ok? <==> (o.Some? ==> check(o.value).Ok?)
    ensures r.Ok? ==> (r.value.Some? <==> o.Some?) && (o.Some? ==> r.value.value == check(o.value).value)
  {
    if o.None? then Ok(None)
    else
      var v :- check(o.value);
      Ok(Some(v))
  }

  /** Field validation of `RecipeCreateSerializer`, field by field in the
      declared order: every field is required unless the request is partial
      (PATCH); tags must be a non-empty list of existing tag ids; the name
      and the text are stripped, must not be blank, and the name has at most
      200 characters; the image must become an image file; the cooking time
      and every amount lie in 1..32000.  What goes on is the validated data:
      the stripped name and text and the decoded image file. */
  function ValidatePayload(s: Store, p: RecipePayload<string>, partial: bool,
                           decode: string -> Option<seq<Image.Byte>>, isImage: seq<Image.Byte> -> bool,
    knownExtension: string -> bool)
    : (r: Result<RecipePayload<Image.File>>)
    ensures r.Ok? <==> (partial || Complete(p))
                       && (p.tags.Some? ==> p.tags.value != {} && p.tags.value <= TagIds(s))
                       && (p.ingredients.Some? ==> AmountsInRange(p.ingredients.value))
                       && (p.name.Some? ==> var t := Text.Strip(p.name.value);
                             t != "" && Nul !in t && |t| <= NameMaxLength)
                       && (p.image.Some? ==> CheckImage(p.image.value, decode, isImage, knownExtension).Ok?)
                       && (p.text.Some? ==> var t := Text.Strip(p.text.value); t != "" && Nul !in t)
                       && (p.cookingTime.Some? ==> MinValue <= p.cookingTime.value <= MaxValue)
    ensures r.Ok? ==> && r.value.tags == p.tags && r.value.ingredients == p.ingredients
                      && r.value.cookingTime == p.cookingTime
                      && r.value.name == (if p.name.Some? then Some(Text.Strip(p.name.value)) else None)
                      && r.value.text == (if p.text.Some? then Some(Text.Strip(p.text.value)) else None)
                      && (r.value.image.Some? <==> p.image.Some?)
    ensures r.Ok? && p.image.Some? ==>
      r.value.image == Some(CheckImage(p.image.value, decode, isImage, knownExtension).value)
  {
    if !partial && !Complete(p) then Err(MissingField)
    else
      var tags :- CheckGiven(p.tags, t => CheckTags(s, t));
      var ingredients :- CheckGiven(p.ingredients, CheckEntries);
      var name :- CheckGiven(p.name, CheckName);
      var image :- CheckGiven(p.image, d => CheckImage(d, decode, isImage, knownExtension));
      var text :- CheckGiven(p.text, CheckText);
      var cookingTime :- CheckGiven(p.cookingTime, v => CheckRange(v, CookingTime));
      Ok(RecipePayload(tags, ingredients, name, image, text, cookingTime))
  }

  /** The two payloads the serializer refuses for the reasons the model field
      adds: an empty tag list, and a tag id with no Tag row. */
  lemma TagsMustExist(s: Store, p: RecipePayload<string>, decode: string -> Option<seq<Image.Byte>>,
                      isImage: seq<Image.Byte> -> bool,
    knownExtension: string -> bool, t: nat)
    requires p.tags == Some({}) || (p.tags == Some({t}) && forall x | x in s.tags :: x.id != t)
    ensures ValidatePayload(s, p, true, decode, isImage, knownExtension).Err?
  {
    if p.tags == Some({t}) {
      assert t !in TagIds(s);
    }
  }

  /** A name or a text made of whitespace only is blank once stripped. */
  lemma BlankNameOrTextRefused(s: Store, p: RecipePayload<string>, partial: bool,
                               decode: string -> Option<seq<Image.Byte>>, isImage: seq<Image.Byte> -> bool,
    knownExtension: string -> bool)
    requires (p.name.Some? && Text.AllSpace(p.name.value)) || (p.text.Some? && Text.AllSpace(p.text.value))
    ensures ValidatePayload(s, p, partial, decode, isImage, knownExtension).Err?
  {
    if p.name.Some? && Text.AllSpace(p.name.value) {
      Text.StripEmptyIffAllSpace(p.name.value);
    } else {
      Text.StripEmptyIffAllSpace(p.text.value);
    }
  }

  /** A data URI whose `;base64,` marker does not occur exactly once makes
      the whole payload invalid, before any write happens. */
  lemma MalformedImageRefused(s: Store, p: RecipePayload<string>, decode: string -> Option<seq<Image.Byte>>,
                              isImage: seq<Image.Byte> -> bool,
    knownExtension: string -> bool)
    requires p.image.Some? && Text.StartsWith(p.image.value, Image.DataImagePrefix)
    requires |Text.Split(p.image.value, Image.Base64Marker)| != 2
    ensures ValidatePayload(s, p, true, decode, isImage, knownExtension).Err?
  {
    Image.MarkerCountMustBeOne(p.image.value, decode);
  }

  /** Everything is resolvable: each entry names an existing ingredient. */
  predicate AllResolve(ingredients: seq<Ingredient>, es: seq<IngredientEntry>) {
    forall i | 0 <= i < |es| :: FindIngredient(ingredients, es[i].id).Some?
  }

  /** The lines `adding_ingredients` builds: one per entry, in entry order,
      duplicates kept. */
  predicate BuiltFrom(ls: seq<Line>, es: seq<IngredientEntry>, recipe: nat) {
    |ls| == |es|
    && forall i | 0 <= i < |es| ::
         ls[i].recipe == recipe && ls[i].ingredient == es[i].id && ls[i].amount == es[i].amount
  }

  /** The loop of `adding_ingredients`: look each entry's ingredient up
      (`get_object_or_404`) and build its line; the first miss aborts. */
  function ResolveLines(ingredients: seq<Ingredient>, es: seq<IngredientEntry>, recipe: nat)
    : (r: Result<seq<Line>>)
    ensures r.Ok? <==> AllResolve(ingredients, es)
    ensures r.Ok? ==> BuiltFrom(r.value, es, recipe)
    ensures r.Err? ==> r.error == NotFound
  {
    if |es| == 0 then Ok([])
    else
      match FindIngredient(ingredients, es[0].id)
      case None => Err(NotFound)
      case Some(ing) =>
        var rest :- ResolveLines(ingredients, es[1..], recipe);
        assert es == [es[0]] + es[1..];
        Ok([Line(recipe, ing.id, es[0].amount)] + rest)
  }

  lemma {:induction false} BuiltLinesBelongTo(ls: seq<Line>, es: seq<IngredientEntry>, recipe: nat)
    requires BuiltFrom(ls, es, recipe)
    ensures LinesOf(ls, recipe) == ls
    ensures forall other | other != recipe :: LinesOf(ls, other) == []
    decreases |ls|
  {
    if |ls| > 0 {
      BuiltLinesBelongTo(ls[1..], es[1..], recipe);
    }
  }

  /** `adding_ingredients(entries, recipe)`: all lookups happen before the
      single `bulk_create`, so either every line is appended or none is; the
      table is only ever appended to. */
  function AddingIngredients(s: Store, es: seq<IngredientEntry>, recipe: nat): (r: Result<Store>)
    ensures r.Ok? <==> AllResolve(s.ingredients, es)
    ensures r.Err? ==> r.error == NotFound
    ensures r.Ok? ==> r.value == s.(lines := r.value.lines)
    ensures r.Ok? ==> |r.value.lines| == |s.lines| + |es| && r.value.lines[..|s.lines|] == s.lines
    ensures r.Ok? ==> BuiltFrom(r.value.lines[|s.lines|..], es, recipe)
    ensures r.Ok? ==> LinesOf(r.value.lines, recipe) == LinesOf(s.lines, recipe) + r.value.lines[|s.lines|..]
    ensures r.Ok? ==> forall other | other != recipe :: LinesOf(r.value.lines, other) == LinesOf(s.lines, other)
  {
    var built :- ResolveLines(s.ingredients, es, recipe);
    var lines := s.lines + built;
    assert lines[|s.lines|..] == built;
    assert lines[..|s.lines|] == s.lines;
    LinesOfAppend(s.lines, built, recipe);
    BuiltLinesBelongTo(built, es, recipe);
    assert forall other | other != recipe :: LinesOf(lines, other) == LinesOf(s.lines, other) by {
      forall other | other != recipe
        ensures LinesOf(lines, other) == LinesOf(s.lines, other)
      {
        LinesOfAppend(s.lines, built, other);
      }
    }
    Ok(s.(lines := lines))
  }

  /** The store after a create or update call, and the call's outcome (the
      recipe id on success).  On failure the store may hold partial writes. */
  datatype Effect = Effect(store: Store, result: Result<nat>)

  /** Recipe ids are below the id counter, and so are the recipes lines refer to. */
  predicate IdsBelowCounter(s: Store) {
    && (forall r | r in s.recipes :: r.id < s.nextRecipeId)
    && (forall l | l in s.lines :: l.recipe < s.nextRecipeId)
  }

  /** `RecipeCreateSerializer.create` on validated data: insert the recipe
      row (author and publication time from the request), set its tags, then
      `adding_ingredients`.  The recipe row stays even when an ingredient
      lookup fails. */
  function Create(s: Store, author: nat, p: RecipePayload<Image.File>, now: nat): (e: Effect)
    requires Complete(p)
    ensures e.store.recipes == s.recipes + [Recipe(s.nextRecipeId, author, p.name.value, p.image.value,
                                                   p.text.value, p.cookingTime.value, now, p.tags.value)]
    ensures e.store.nextRecipeId == s.nextRecipeId + 1
    ensures e.result.Ok? <==> AllResolve(s.ingredients, p.ingredients.value)
    ensures e.result.Ok? ==> e.result.value == s.nextRecipeId
    ensures e.result.Ok? ==> |e.store.lines| == |s.lines| + |p.ingredients.value|
                             && e.store.lines[..|s.lines|] == s.lines
                             && BuiltFrom(e.store.lines[|s.lines|..], p.ingredients.value, s.nextRecipeId)
    ensures e.result.Err? ==> e.store.lines == s.lines
    ensures e.store.users == s.users && e.store.favorites == s.favorites && e.store.cart == s.cart
  {
    var id := s.nextRecipeId;
    var rec := Recipe(id, author, p.name.value, p.image.value, p.text.value, p.cookingTime.value, now, p.tags.value);
    var s1 := s.(recipes := s.recipes + [rec], nextRecipeId := id + 1);
    match AddingIngredients(s1, p.ingredients.value, id)
    case Err(err) => Effect(s1, Err(err))
    case Ok(s2) => Effect(s2, Ok(id))
  }

  lemma NoLinesOfFreshId(s: Store)
    requires IdsBelowCounter(s)
    ensures LinesOf(s.lines, s.nextRecipeId) == []
  {
    LinesOfAbsent(s.lines, s.nextRecipeId);
  }

  /** A successful create attaches exactly the given tags and, in input
      order, exactly one line per given entry to the new recipe, and raises
      the author's `recipes_count` by one. */
  lemma CreateAttachesExactly(s: Store, author: nat, p: RecipePayload<Image.File>, now: nat)
    requires Complete(p) && IdsBelowCounter(s)
    requires Create(s, author, p, now).result.Ok?
    ensures var e := Create(s, author, p, now);
      var id := s.nextRecipeId;
      && FindRecipe(e.store.recipes, id).Some?
      && FindRecipe(e.store.recipes, id).value.tags == p.tags.value
      && FindRecipe(e.store.recipes, id).value.author == author
      && BuiltFrom(LinesOf(e.store.lines, id), p.ingredients.value, id)
      && RecipesCount(e.store, author) == RecipesCount(s, author) + 1
  {
    var e := Create(s, author, p, now);
    var id := s.nextRecipeId;
    var r := e.store.recipes[|s.recipes|];
    assert FindRecipe(e.store.recipes, id) == Some(r) by {
      FindRecipeAppended(s.recipes, r);
    }
    assert LinesOf(e.store.lines, id) == e.store.lines[|s.lines|..] by {
      var built := e.store.lines[|s.lines|..];
      NoLinesOfFreshId(s);
      assert e.store.lines == s.lines + built;
      LinesOfAppend(s.lines, built, id);
      BuiltLinesBelongTo(built, p.ingredients.value, id);
    }
    assert RecipesCount(e.store, author) == RecipesCount(s, author) + 1 by {
      RecipesCountAfterAdd(s, r, author);
      assert RecipesCount(e.store, author) == RecipesCount(s.(recipes := e.store.recipes), author);
    }
  }

  /** Applies `f` to the recipe with the given id, leaving the others alone. */
  function UpdateRecipe(rs: seq<Recipe>, id: nat, f: Recipe -> Recipe): (r: seq<Recipe>)
    ensures |r| == |rs|
    ensures forall i | 0 <= i < |rs| :: r[i] == (if rs[i].id == id then f(rs[i]) else rs[i])
  {
    seq(|rs|, i requires 0 <= i < |rs| => if rs[i].id == id then f(rs[i]) else rs[i])
  }

  /** Every other recipe is found exactly as before: the update touches the
      rows of `id` only, and keeps each row's id. */
  lemma {:induction false} FindOthersAfterUpdate(rs: seq<Recipe>, id: nat, f: Recipe -> Recipe, j: nat)
    requires forall x :: f(x).id == x.id
    requires j != id
    ensures FindRecipe(UpdateRecipe(rs, id, f), j) == FindRecipe(rs, j)
  {
    if |rs| > 0 {
      var r := UpdateRecipe(rs, id, f);
      assert r[1..] == UpdateRecipe(rs[1..], id, f);
      assert r[0].id == rs[0].id;
      if rs[0].id != j {
        FindOthersAfterUpdate(rs[1..], id, f, j);
      } else {
        assert r[0] == rs[0];
      }
    }
  }

  lemma {:induction false} FindAfterUpdate(rs: seq<Recipe>, id: nat, f: Recipe -> Recipe)
    requires FindRecipe(rs, id).Some?
    requires forall x :: f(x).id == x.id
    ensures FindRecipe(UpdateRecipe(rs, id, f), id) == Some(f(FindRecipe(rs, id).value))
  {
    var r := UpdateRecipe(rs, id, f);
    if rs[0].id != id {
      assert r[1..] == UpdateRecipe(rs[1..], id, f);
      FindAfterUpdate(rs[1..], id, f);
    }
  }

  /** `super().update`: assign the scalar fields the (partial) payload carries. */
  function AssignFields(p: RecipePayload<Image.File>): Recipe -> Recipe {
    (x: Recipe) =>
      x.(name := if p.name.Some? then p.name.value else x.name,
         image := if p.image.Some? then p.image.value else x.image,
         text := if p.text.Some? then p.text.value else x.text,
         cookingTime := if p.cookingTime.Some? then p.cookingTime.value else x.cookingTime)
  }

  function SetTags(tags: set<nat>): Recipe -> Recipe {
    (x: Recipe) => x.(tags := tags)
  }

  /** `RecipeCreateSerializer.update` for the recipe `id` (looked up by the
      view, 404 when absent).  In source order: pop tags and ingredients
      (missing keys fail before any write), set the tags, delete every line of
      the recipe, `adding_ingredients`, and only then assign the scalar
      fields.  A failed ingredient lookup therefore leaves the new tags and
      no lines behind. */
  function Update(s: Store, id: nat, p: RecipePayload<Image.File>): (e: Effect)
    ensures FindRecipe(s.recipes, id).None? ==> e == Effect(s, Err(NotFound))
    ensures p.tags.None? || p.ingredients.None? ==> e.store == s && e.result.Err?
    ensures |e.store.recipes| == |s.recipes|
    ensures forall i | 0 <= i < |s.recipes| && s.recipes[i].id != id :: e.store.recipes[i] == s.recipes[i]
    ensures forall other | other != id :: LinesOf(e.store.lines, other) == LinesOf(s.lines, other)
    ensures e.result.Ok? ==> e.result.value == id
    ensures e.result.Ok? ==> BuiltFrom(LinesOf(e.store.lines, id), p.ingredients.value, id)
    ensures e.result.Ok? <==> (FindRecipe(s.recipes, id).Some? && p.tags.Some? && p.ingredients.Some?
                               && AllResolve(s.ingredients, p.ingredients.value))
    ensures e.store.nextRecipeId == s.nextRecipeId && e.store.users == s.users
    ensures e.store.follows == s.follows && e.store.favorites == s.favorites && e.store.cart == s.cart
  {
    if FindRecipe(s.recipes, id).None? then Effect(s, Err(NotFound))
    else if p.tags.None? || p.ingredients.None? then Effect(s, Err(MissingField))
    else
      var s1 := s.(recipes := UpdateRecipe(s.recipes, id, SetTags(p.tags.value)));
      var s2 := s1.(lines := DropLinesOf(s1.lines, id));
      match AddingIngredients(s2, p.ingredients.value, id)
      case Err(err) => Effect(s2, Err(err))
      case Ok(s3) =>
        assert LinesOf(s3.lines, id) == s3.lines[|s2.lines|..];
        Effect(s3.(recipes := UpdateRecipe(s3.recipes, id, AssignFields(p))), Ok(id))
  }

  /** After a successful update the recipe carries exactly the new tags and
      the payload's scalar fields; its id, author and publication date stay. */
  lemma UpdateSetsRecipe(s: Store, id: nat, p: RecipePayload<Image.File>)
    requires Update(s, id, p).result.Ok?
    ensures var before := FindRecipe(s.recipes, id).value;
      var after := FindRecipe(Update(s, id, p).store.recipes, id);
      && after.Some?
      && after.value.id == id
      && after.value.tags == p.tags.value
      && after.value.author == before.author && after.value.pubDate == before.pubDate
      && after.value.name == (if p.name.Some? then p.name.value else before.name)
      && after.value.image == (if p.image.Some? then p.image.value else before.image)
      && after.value.text == (if p.text.Some? then p.text.value else before.text)
      && after.value.cookingTime == (if p.cookingTime.Some? then p.cookingTime.value else before.cookingTime)
  {
    var rs1 := UpdateRecipe(s.recipes, id, SetTags(p.tags.value));
    FindAfterUpdate(s.recipes, id, SetTags(p.tags.value));
    FindAfterUpdate(rs1, id, AssignFields(p));
  }

  /** What a validated update request leaves in the recipe row: the stripped
      name and text, and the file the image field decoded, a non-empty image
      named `temp.<ext>`. */
  lemma ValidatedUpdateStores(s: Store, id: nat, raw: RecipePayload<string>, partial: bool,
                              decode: string -> Option<seq<Image.Byte>>, isImage: seq<Image.Byte> -> bool,
    knownExtension: string -> bool)
    requires ValidatePayload(s, raw, partial, decode, isImage, knownExtension).Ok?
    requires Update(s, id, ValidatePayload(s, raw, partial, decode, isImage, knownExtension).value).result.Ok?
    ensures var p := ValidatePayload(s, raw, partial, decode, isImage, knownExtension).value;
      var before := FindRecipe(s.recipes, id).value;
      var after := FindRecipe(Update(s, id, p).store.recipes, id).value;
      && after.name == (if raw.name.Some? then Text.Strip(raw.name.value) else before.name)
      && after.text == (if raw.text.Some? then Text.Strip(raw.text.value) else before.text)
      && (raw.image.Some? ==>
            && Image.ToInternalValue(Image.ImageInput.Text(raw.image.value), decode)
               == Ok(Image.ImageInput.Upload(after.image))
            && Text.StartsWith(after.image.name, "temp.")
            && |after.image.content| > 0 && isImage(after.image.content)
            && knownExtension(Image.Extension(after.image.name)))
      && after.tags == raw.tags.value
  {
    var p := ValidatePayload(s, raw, partial, decode, isImage, knownExtension).value;
    UpdateSetsRecipe(s, id, p);
  }

  /** What a validated create request stores: the full payload is present,
      and the new recipe holds the stripped name and text and the decoded
      image file. */
  lemma ValidatedCreateStores(s: Store, author: nat, raw: RecipePayload<string>,
                              decode: string -> Option<seq<Image.Byte>>, isImage: seq<Image.Byte> -> bool,
    knownExtension: string -> bool, now: nat)
    requires ValidatePayload(s, raw, false, decode, isImage, knownExtension).Ok?
    ensures Complete(ValidatePayload(s, raw, false, decode, isImage, knownExtension).value)
    ensures var p := ValidatePayload(s, raw, false, decode, isImage, knownExtension).value;
      var created := Text.Last(Create(s, author, p, now).store.recipes);
      && created.id == s.nextRecipeId && created.author == author
      && created.name == Text.Strip(raw.name.value)
      && created.text == Text.Strip(raw.text.value)
      && Image.ToInternalValue(Image.ImageInput.Text(raw.image.value), decode)
         == Ok(Image.ImageInput.Upload(created.image))
      && Text.StartsWith(created.image.name, "temp.")
      && |created.image.content| > 0 && isImage(created.image.content)
      && knownExtension(Image.Extension(created.image.name))
      && created.cookingTime == raw.cookingTime.value && created.tags == raw.tags.value
  {
  }

  /** The update is not atomic: when an ingredient id does not resolve, the
      call fails after the tags were replaced and the old lines deleted, so
      the recipe is left with the new tags and no ingredient lines. */
  lemma UpdateFailureIsPartial(s: Store, id: nat, p: RecipePayload<Image.File>)
    requires FindRecipe(s.recipes, id).Some? && p.tags.Some? && p.ingredients.Some?
    requires !AllResolve(s.ingredients, p.ingredients.value)
    ensures var e := Update(s, id, p);
      && e.result == Err(NotFound)
      && LinesOf(e.store.lines, id) == []
      && FindRecipe(e.store.recipes, id).Some?
      && FindRecipe(e.store.recipes, id).value.tags == p.tags.value
  {
    FindAfterUpdate(s.recipes, id, SetTags(p.tags.value));
  }

  /** Create is not atomic either: a failed lookup leaves a recipe row with
      no ingredient lines. */
  lemma CreateFailureLeavesEmptyRecipe(s: Store, author: nat, p: RecipePayload<Image.File>, now: nat)
    requires Complete(p) && IdsBelowCounter(s)
    requires !AllResolve(s.ingredients, p.ingredients.value)
    ensures var e := Create(s, author, p, now);
      && e.result == Err(NotFound)
      && FindRecipe(e.store.recipes, s.nextRecipeId).Some?
      && LinesOf(e.store.lines, s.nextRecipeId) == []
  {
    var e := Create(s, author, p, now);
    FindRecipeAppended(s.recipes, e.store.recipes[|s.recipes|]);
    NoLinesOfFreshId(s);
  }

  lemma {:induction false} FindRecipeAppended(rs: seq<Recipe>, r: Recipe)
    requires forall x | x in rs :: x.id != r.id
    ensures FindRecipe(rs + [r], r.id) == Some(r)
  {
    if |rs| > 0 {
      assert (rs + [r])[1..] == rs[1..] + [r];
      FindRecipeAppended(rs[1..], r);
    } else {
      assert rs + [r] == [r];
    }
  }

  /** Create keeps the id counter ahead of every recipe and line. */
  lemma CreateKeepsIdsBelowCounter(s: Store, author: nat, p: RecipePayload<Image.File>, now: nat)
    requires IdsBelowCounter(s) && Complete(p)
    ensures IdsBelowCounter(Create(s, author, p, now).store)
  {
  }

  /** So does update. */
  lemma UpdateKeepsIdsBelowCounter(s: Store, id: nat, q: RecipePayload<Image.File>)
    requires IdsBelowCounter(s)
    ensures IdsBelowCounter(Update(s, id, q).store)
  {
    var e := Update(s, id, q);
    if FindRecipe(s.recipes, id).Some? {
      assert id < s.nextRecipeId;
      forall l | l in e.store.lines ensures l.recipe < e.store.nextRecipeId {
        if l.recipe != id {
          assert l in LinesOf(e.store.lines, l.recipe);
          assert l in LinesOf(s.lines, l.recipe);
        }
      }
      forall r | r in e.store.recipes ensures r.id < e.store.nextRecipeId {
        var i :| 0 <= i < |e.store.recipes| && e.store.recipes[i] == r;
        if s.recipes[i].id != id {
          assert r == s.recipes[i];
        } else {
          assert s.recipes[i] in s.recipes;
        }
      }
    }
  }
}

=== FILE: fields.dfy ===
/** The framework's string fields as the serializers declare them: DRF's
    `CharField` with its defaults `allow_blank=False` and
    `trim_whitespace=True`, and `EmailField`, which adds Django's
    `EmailValidator`.

    A field first refuses a value that is empty once stripped; it then hands
    on the stripped value, which its validators check: `max_length` when the
    field has one, and the `ProhibitNullCharactersValidator` every
    `CharField` carries.
 */
module Fields {
  import opened Results
  import opened Text

  const Nul := '\0'

  function CharField(data: string, field: Field, maxLength: Option<nat>): (r: Result<string>)
    ensures r.Ok? <==> && Strip(data) != "" && Nul !in Strip(data)
                       && (maxLength.Some? ==> |Strip(data)| <= maxLength.value)
    ensures r.Ok? ==> r.value == Strip(data)
    ensures AllSpace(data) <==> r == Err(Blank(field))
  {
    StripEmptyIffAllSpace(data);
    var t := Strip(data);
    if t == "" then Err(Blank(field))
    else if maxLength.Some? && |t| > maxLength.value then Err(TooLong(field))
    else if Nul in t then Err(NulCharacter(field))
    else Ok(t)
  }

  /** Whitespace around a value changes nothing: the field sees the same
      stripped text, accepts or refuses it alike, and hands on the same value. */
  lemma CharFieldIgnoresPadding(a: string, data: string, b: string, field: Field, maxLength: Option<nat>)
    requires AllSpace(a) && AllSpace(b)
    ensures CharField(a + data + b, field, maxLength) == CharField(data, field, maxLength)
  {
    StripIgnoresPadding(a, data, b);
  }

  /** An accepted value passes the field again unchanged. */
  lemma CharFieldIdempotent(data: string, field: Field, maxLength: Option<nat>)
    requires CharField(data, field, maxLength).Ok?
    ensures CharField(CharField(data, field, maxLength).value, field, maxLength)
         == CharField(data, field, maxLength)
  {
    StripIdempotent(data);
  }

  /** Django's `EmailValidator` on the stripped value: it needs an '@', cuts
      the value at its last '@' (`rsplit('@', 1)`), and asks the user part
      and the domain part to match the validator's regular expressions, which
      are the parameter `parts`. */
  predicate EmailValidator(v: string, parts: (string, string) -> bool) {
    match LastIndexOf(v, '@')
    case None => false
    case Some(i) => parts(v[..i], v[i + 1..])
  }

  /** DRF's `EmailField(max_length=...)`. */
  function EmailField(data: string, maxLength: nat, parts: (string, string) -> bool): (r: Result<string>)
    ensures r.Ok? <==> && Strip(data) != "" && Nul !in Strip(data) && |Strip(data)| <= maxLength
                       && exists i | 0 <= i < |Strip(data)| ::
                            && Strip(data)[i] == '@' && '@' !in Strip(data)[i + 1..]
                            && parts(Strip(data)[..i], Strip(data)[i + 1..])
    ensures r.Ok? ==> r.value == Strip(data)
  {
    var t :- CharField(data, Email, Some(maxLength));
    EmailCutsAtLastAt(t, parts);
    if EmailValidator(t, parts) then Ok(t) else Err(InvalidEmail)
  }

  /** The validator's cut is the only one that leaves no '@' after it. */
  lemma EmailCutsAtLastAt(v: string, parts: (string, string) -> bool)
    ensures EmailValidator(v, parts) <==>
      exists i | 0 <= i < |v| :: v[i] == '@' && '@' !in v[i + 1..] && parts(v[..i], v[i + 1..])
  {
    match LastIndexOf(v, '@')
    case None =>
    case Some(j) =>
  }

  /** A value without an '@' is never an e-mail address. */
  lemma EmailNeedsAt(data: string, maxLength: nat, parts: (string, string) -> bool)
    requires '@' !in data
    ensures EmailField(data, maxLength, parts).Err?
  {
    var t := Strip(data);
    StripIsPadded(data);
    var i :| PaddedAt(data, t, i);
  }
}

=== FILE: filters.dfy ===
/** The boolean filters of `RecipeFilter`: `is_favorited` and
    `is_in_shopping_cart` narrow the recipe list to the requesting user's
    favourites or cart.

    The filter is a join across the reverse relation with no `distinct()`,
    so a recipe is kept once per matching link row.  With duplicate-free
    link tables, which the toggles maintain, this is the plain filter.
 */
module Filters {
  import opened Links
  import opened Store

  /** `n` copies of `x`. */
  function Repeat(x: Recipe, n: nat): (r: seq<Recipe>)
    ensures |r| == n
    ensures forall i | 0 <= i < n :: r[i] == x
  {
    if n == 0 then [] else [x] + Repeat(x, n - 1)
  }

  lemma {:induction false} RepeatMultiset(x: Recipe, n: nat)
    ensures multiset(Repeat(x, n)) == multiset{}[x := n]
  {
    if n > 0 {
      RepeatMultiset(x, n - 1);
      assert Repeat(x, n) == [x] + Repeat(x, n - 1);
    }
  }

  /** `queryset.filter(<link>__user=user)` over the link table `t`: every
      recipe of `qs`, in `qs` order, once per (user, recipe) row of `t`. */
  function FilterByLink(qs: seq<Recipe>, t: seq<Link>, user: nat): (r: seq<Recipe>)
    ensures forall x | x in r :: x in qs && Present(t, user, x.id)
    ensures forall x | x in qs && Present(t, user, x.id) :: x in r
  {
    if |qs| == 0 then []
    else
      var n := Count(t, Link(user, qs[0].id));
      assert n > 0 <==> Present(t, user, qs[0].id);
      assert forall x | x in qs :: x == qs[0] || x in qs[1..];
      Repeat(qs[0], n) + FilterByLink(qs[1..], t, user)
  }

  /** Each recipe of `qs` is kept once per matching link row. */
  lemma {:induction false} FilterByLinkMultiplicity(qs: seq<Recipe>, t: seq<Link>, user: nat, x: Recipe)
    ensures multiset(FilterByLink(qs, t, user))[x] == multiset(qs)[x] * Count(t, Link(user, x.id))
  {
    if |qs| > 0 {
      var n := Count(t, Link(user, qs[0].id));
      var c := Count(t, Link(user, x.id));
      var k := multiset(qs[1..])[x];
      var a := Repeat(qs[0], n);
      var rest := FilterByLink(qs[1..], t, user);
      assert multiset(rest)[x] == k * c by {
        FilterByLinkMultiplicity(qs[1..], t, user, x);
      }
      assert multiset(a)[x] == (if x == qs[0] then c else 0) by {
        RepeatMultiset(qs[0], n);
      }
      assert multiset(qs)[x] == (if x == qs[0] then 1 else 0) + k by {
        assert qs == [qs[0]] + qs[1..];
      }
      assert multiset(FilterByLink(qs, t, user))[x] == multiset(a)[x] + multiset(rest)[x] by {
        assert FilterByLink(qs, t, user) == a + rest;
      }
      if x == qs[0] {
        MulSucc(k, c);
      }
    } else {
      assert multiset(qs)[x] == 0;
      MulZero(Count(t, Link(user, x.id)));
    }
  }

  lemma MulSucc(k: nat, c: nat)
    ensures (k + 1) * c == c + k * c
  {
  }

  lemma MulZero(c: nat)
    ensures 0 * c == 0
  {
  }

  /** Reference definition: the recipes of `qs` for which `user` has a link, in `qs` order. */
  function Keep(qs: seq<Recipe>, t: seq<Link>, user: nat): seq<Recipe> {
    if |qs| == 0 then []
    else if Present(t, user, qs[0].id) then [qs[0]] + Keep(qs[1..], t, user)
    else Keep(qs[1..], t, user)
  }

  /** Over a duplicate-free link table the join is the plain filter. */
  lemma {:induction false} FilterByLinkUnique(qs: seq<Recipe>, t: seq<Link>, user: nat)
    requires Unique(t)
    ensures FilterByLink(qs, t, user) == Keep(qs, t, user)
  {
    if |qs| > 0 {
      var l := Link(user, qs[0].id);
      if l in t {
        assert Count(t, l) <= 1;
        assert Count(t, l) == 1;
        assert Repeat(qs[0], 1) == [qs[0]];
      } else {
        assert Count(t, l) == 0;
      }
      FilterByLinkUnique(qs[1..], t, user);
    }
  }

  /** Over a duplicate-free link table the result is a sub-multiset of the input. */
  lemma FilterByLinkShrinks(qs: seq<Recipe>, t: seq<Link>, user: nat)
    requires Unique(t)
    ensures multiset(FilterByLink(qs, t, user)) <= multiset(qs)
  {
    var r := FilterByLink(qs, t, user);
    forall x ensures multiset(r)[x] <= multiset(qs)[x] {
      FilterByLinkMultiplicity(qs, t, user, x);
      var l := Link(user, x.id);
      var k := multiset(qs)[x];
      if l in t {
        assert Count(t, l) <= 1;
        assert Count(t, l) == 1;
        assert k * 1 == k;
      } else {
        assert Count(t, l) == 0;
        assert k * 0 == 0;
      }
    }
  }

  /** `filter_is_favorited`: on true, the recipes the user has favourited; on false, the input. */
  function FilterIsFavorited(s: Store, qs: seq<Recipe>, user: nat, value: bool): (r: seq<Recipe>)
    ensures !value ==> r == qs
    ensures value ==> forall x :: x in r <==> x in qs && IsFavorited(s, x.id, user)
    ensures forall x | x in r :: x in qs
  {
    if value then FilterByLink(qs, s.favorites, user) else qs
  }

  /** `filter_is_in_shopping_cart`: on true, the recipes in the user's cart; on false, the input. */
  function FilterIsInShoppingCart(s: Store, qs: seq<Recipe>, user: nat, value: bool): (r: seq<Recipe>)
    ensures !value ==> r == qs
    ensures value ==> forall x :: x in r <==> x in qs && IsInShoppingCart(s, x.id, user)
    ensures forall x | x in r :: x in qs
  {
    if value then FilterByLink(qs, s.cart, user) else qs
  }

  /** With a duplicate-free favourite table, `is_favorited=true` keeps each
      favourited recipe exactly as often as it occurs in the input, and in
      the input's order. */
  lemma FavoritedIsPlainFilter(s: Store, qs: seq<Recipe>, user: nat)
    requires Unique(s.favorites)
    ensures FilterIsFavorited(s, qs, user, true) == Keep(qs, s.favorites, user)
    ensures multiset(FilterIsFavorited(s, qs, user, true)) <= multiset(qs)
  {
    FilterByLinkUnique(qs, s.favorites, user);
    FilterByLinkShrinks(qs, s.favorites, user);
  }

  /** The same for the cart and `is_in_shopping_cart=true`. */
  lemma InCartIsPlainFilter(s: Store, qs: seq<Recipe>, user: nat)
    requires Unique(s.cart)
    ensures FilterIsInShoppingCart(s, qs, user, true) == Keep(qs, s.cart, user)
    ensures multiset(FilterIsInShoppingCart(s, qs, user, true)) <= multiset(qs)
  {
    FilterByLinkUnique(qs, s.cart, user);
    FilterByLinkShrinks(qs, s.cart, user);
  }

  /** A favourite row that appears twice makes the recipe appear twice in
      the filtered list: the join does not collapse duplicates. */
  lemma DuplicateRowDuplicatesRecipe(x: Recipe, user: nat)
    ensures FilterByLink([x], [Link(user, x.id), Link(user, x.id)], user) == [x, x]
  {
    var t := [Link(user, x.id), Link(user, x.id)];
    assert multiset(t) == multiset{Link(user, x.id), Link(user, x.id)};
    assert Count(t, Link(user, x.id)) == 2;
    assert Repeat(x, 2) == [x, x];
  }
}

=== FILE: image.dfy ===
/** `Base64ImageField.to_internal_value`: a `data:image/<ext>;base64,<payload>`
    string becomes an uploaded file named `temp.<ext>`; anything else is handed
    on unchanged to the framework's image field.

    Base64 decoding is a parameter (`decode`), returning None where the
    decoder raises.  The function returns the value it hands on; the
    framework's image field that checks it is `Aggregate.CheckImage`.
 */
module Image {
  import opened Results
  import opened Text

  const DataImagePrefix := "data:image"
  const Base64Marker := ";base64,"

  newtype Byte = b: int | 0 <= b < 256

  datatype File = File(name: string, content: seq<Byte>)

  /** The incoming field value: a string, or an already uploaded file. */
  datatype ImageInput = Text(s: string) | Upload(file: File)

  function ToInternalValue(data: ImageInput, decode: string -> Option<seq<Byte>>): (r: Result<ImageInput>)
    ensures !(data.Text? && StartsWith(data.s, DataImagePrefix)) ==> r == Ok(data)
    ensures r.Err? ==> data.Text? && StartsWith(data.s, DataImagePrefix)
    ensures r.Ok? && data.Text? && StartsWith(data.s, DataImagePrefix) ==>
      r.value.Upload? && StartsWith(r.value.file.name, "temp.")
  {
    if data.Text? && StartsWith(data.s, DataImagePrefix) then
      var parts := Split(data.s, Base64Marker);
      if |parts| != 2 then Err(MalformedDataUri)  // `format, imgstr = ...` fails to unpack
      else
        var ext := Last(Split(parts[0], "/"));
        match decode(parts[1])
        case None => Err(UndecodableImage)
        case Some(bytes) => Ok(Upload(File("temp." + ext, bytes)))
    else Ok(data)
  }

  /** The file-name extension the framework's `validate_image_file_extension`
      checks: `Path(name).suffix` without its dot.  It is the text after the
      last '.', or "" when there is no '.', the name ends with its last '.',
      or that '.' is the name's first character. */
  function Extension(name: string): (r: string)
    ensures '.' !in r
    ensures r != "" ==> && 0 < |name| - |r| - 1
                        && name[|name| - |r| - 1] == '.' && name[|name| - |r|..] == r
    ensures r == "" <==> '.' !in name || name[|name| - 1] == '.' || (name[0] == '.' && '.' !in name[1..])
  {
    match LastIndexOf(name, '.')
    case None => ""
    case Some(i) =>
      if i == 0 || i == |name| - 1 then ""
      else name[i + 1..]
  }

  /** The file `temp.<ext>` has the extension `ext` when `ext` is non-empty
      and holds no '.'. */
  lemma {:induction false} TempNameExtension(ext: string)
    requires ext != "" && '.' !in ext
    ensures Extension("temp." + ext) == ext
  {
    var name := "temp." + ext;
    assert name[4] == '.' && name[5..] == ext;
    assert '.' !in name[5..];
  }

  /** A value that is not a string, or a string not starting with `data:image`,
      passes through unchanged. */
  lemma PassThrough(data: ImageInput, decode: string -> Option<seq<Byte>>)
    requires data.Upload? || !StartsWith(data.s, DataImagePrefix)
    ensures ToInternalValue(data, decode) == Ok(data)
  {
  }

  /** A `data:image` string whose marker count is not exactly one is refused. */
  lemma MarkerCountMustBeOne(s: string, decode: string -> Option<seq<Byte>>)
    requires StartsWith(s, DataImagePrefix)
    requires |Split(s, Base64Marker)| != 2
    ensures ToInternalValue(Text(s), decode) == Err(MalformedDataUri)
  {
  }

  /** A `data:image` string with exactly one `;base64,` (it splits into
      `format` and `payload` around it) becomes a file holding the decoded
      payload, named `temp.` followed by `ext`: the text after the last '/'
      of `format`. */
  lemma DataUriFileName(s: string, format: string, payload: string, bytes: seq<Byte>,
                        decode: string -> Option<seq<Byte>>)
    requires StartsWith(s, DataImagePrefix)
    requires Split(s, Base64Marker) == [format, payload]
    requires decode(payload) == Some(bytes)
    ensures s == format + Base64Marker + payload
    ensures var ext := Last(Split(format, "/"));
      && ToInternalValue(Text(s), decode) == Ok(Upload(File("temp." + ext, bytes)))
      && EndsWith(format, ext)
      && !Contains(ext, "/")
      && (|ext| == |format| || EndsWith(format[..|format| - |ext|], "/"))
  {
    var ext := Last(Split(format, "/"));
    assert ToInternalValue(Text(s), decode) == Ok(Upload(File("temp." + ext, bytes)));
    assert s == format + Base64Marker + payload by {
      SplitJoin(s, Base64Marker);
      assert Join([format, payload], Base64Marker) == format + Base64Marker + payload;
    }
    LastPart(format, "/");
  }

  predicate IsBase64Char(c: char) {
    ('A' <= c <= 'Z') || ('a' <= c <= 'z') || ('0' <= c <= '9') || c == '+' || c == '/' || c == '='
  }

  /** Round trip: when `payload` is base64 text that decodes to `bytes`, the
      data URI `data:image/<ext>;base64,<payload>` is turned into a file
      `temp.<ext>` whose content is exactly `bytes`. */
  lemma DataUriRoundTrip(ext: string, payload: string, bytes: seq<Byte>, decode: string -> Option<seq<Byte>>)
    requires forall c | c in payload :: IsBase64Char(c)
    requires '/' !in ext && ';' !in ext
    requires decode(payload) == Some(bytes)
    ensures ToInternalValue(Text("data:image/" + ext + ";base64," + payload), decode)
         == Ok(Upload(File("temp." + ext, bytes)))
  {
    var format := "data:image/" + ext;
    var s := format + Base64Marker + payload;
    assert "data:image/" + ext + ";base64," + payload == s;
    assert StartsWith(s, DataImagePrefix) by {
      assert s[..|DataImagePrefix|] == DataImagePrefix;
    }
    assert Split(s, Base64Marker) == [format, payload] by {
      assert ';' !in payload by {
        forall c | c in payload ensures c != ';' { assert IsBase64Char(c); }
      }
      assert ';' !in format by {
        forall c | c in format ensures c != ';' {
          var i :| 0 <= i < |format| && format[i] == c;
          if i >= 11 { assert format[i] == ext[i - 11]; }
        }
      }
      SplitAtSole(format, Base64Marker, payload);
    }
    assert Split(format, "/") == [DataImagePrefix, ext] by {
      assert format == DataImagePrefix + "/" + ext;
      SplitAtSole(DataImagePrefix, "/", ext);
    }
  }
}

=== FILE: links.dfy ===
/** A table of directed (actor, target) rows, the shape shared by the follow,
    favourite and shopping-cart tables.  A table is the sequence of its rows
    in primary-key order: an insert appends, a delete drops rows in place.
 */
module Links {

  datatype Link = Link(actor: nat, target: nat)

  /** Rows of `t` equal to `l` (a duplicate-free table holds at most one). */
  function Count(t: seq<Link>, l: Link): nat
  {
    multiset(t)[l]
  }

  /** `filter(actor=a, target=b).exists()` */
  predicate Present(t: seq<Link>, a: nat, b: nat) {
    Link(a, b) in t
  }

  /** No row appears twice. */
  predicate Unique(t: seq<Link>) {
    forall l | l in t :: Count(t, l) <= 1
  }

  /** `objects.create(actor=a, target=b)`: one more (a, b) row, every other row as before. */
  function Insert(t: seq<Link>, a: nat, b: nat): (r: seq<Link>)
    ensures Present(r, a, b)
    ensures Count(r, Link(a, b)) == Count(t, Link(a, b)) + 1
    ensures forall l | l != Link(a, b) :: Count(r, l) == Count(t, l)
    ensures |r| == |t| + 1 && r[..|t|] == t
  {
    t + [Link(a, b)]
  }

  /** `filter(actor=a, target=b).delete()`: every (a, b) row goes, every
      other row stays, in its old order. */
  function Remove(t: seq<Link>, a: nat, b: nat): (r: seq<Link>)
    ensures multiset(r) == multiset(t)[Link(a, b) := 0]
    ensures !Present(r, a, b)
    ensures forall l | l != Link(a, b) :: Count(r, l) == Count(t, l)
    ensures |r| == |t| - Count(t, Link(a, b))
  {
    if |t| == 0 then []
    else
      var rest := Remove(t[1..], a, b);
      assert t == [t[0]] + t[1..];
      assert multiset(t) == multiset{t[0]} + multiset(t[1..]);
      if t[0] == Link(a, b) then rest
      else
        assert multiset([t[0]] + rest) == multiset{t[0]} + multiset(rest);
        [t[0]] + rest
  }

  lemma InsertKeepsUnique(t: seq<Link>, a: nat, b: nat)
    requires Unique(t) && !Present(t, a, b)
    ensures Unique(Insert(t, a, b))
  {
    var r := Insert(t, a, b);
    forall l | l in r
      ensures Count(r, l) <= 1
    {
      if l != Link(a, b) {
        assert l in multiset(t);
      }
    }
  }

  lemma RemoveKeepsUnique(t: seq<Link>, a: nat, b: nat)
    requires Unique(t)
    ensures Unique(Remove(t, a, b))
  {
    var r := Remove(t, a, b);
    forall l | l in r
      ensures Count(r, l) <= 1
    {
      assert l != Link(a, b);
      assert Count(r, l) == Count(t, l);
      assert l in multiset(t);
    }
  }

  /** In a duplicate-free table, removing a present row shortens it by exactly one. */
  lemma RemovePresentShrinksByOne(t: seq<Link>, a: nat, b: nat)
    requires Unique(t) && Present(t, a, b)
    ensures |Remove(t, a, b)| == |t| - 1
  {
    assert Count(t, Link(a, b)) <= 1;
    assert Link(a, b) in multiset(t);
  }

  /** Number of rows whose target is `b`, whatever the actor. */
  function CountTarget(t: seq<Link>, b: nat): (n: nat)
    ensures n <= |t|
    ensures n == 0 <==> forall i | 0 <= i < |t| :: t[i].target != b
  {
    if |t| == 0 then 0
    else (if t[0].target == b then 1 else 0) + CountTarget(t[1..], b)
  }

  /** The targets linked from actor `a`, in row order. */
  function Targets(t: seq<Link>, a: nat): (r: seq<nat>)
    ensures forall b :: b in r <==> Present(t, a, b)
    ensures |r| <= |t|
  {
    if |t| == 0 then []
    else
      var rest := Targets(t[1..], a);
      assert forall l :: l in t <==> l == t[0] || l in t[1..];
      if t[0].actor == a then [t[0].target] + rest else rest
  }

  /** A row appended to the table adds its target at the end of the actor's
      targets: the targets come in row order. */
  lemma {:induction false} TargetsAppend(t: seq<Link>, l: Link, a: nat)
    ensures Targets(t + [l], a) == Targets(t, a) + (if l.actor == a then [l.target] else [])
  {
    if |t| == 0 {
      assert t + [l] == [l];
      assert [l][1..] == [];
    } else {
      assert (t + [l])[1..] == t[1..] + [l];
      TargetsAppend(t[1..], l, a);
    }
  }

  /** Removing a pair that is absent changes nothing. */
  lemma {:induction false} RemoveAbsent(t: seq<Link>, a: nat, b: nat)
    requires !Present(t, a, b)
    ensures Remove(t, a, b) == t
  {
    if |t| > 0 {
      assert Link(a, b) !in t[1..];
      RemoveAbsent(t[1..], a, b);
      assert t == [t[0]] + t[1..];
    }
  }

  /** Removing a pair right after appending it, when it was absent before,
      gives back the table as it was. */
  lemma {:induction false} RemoveUndoesInsert(t: seq<Link>, a: nat, b: nat)
    requires !Present(t, a, b)
    ensures Remove(Insert(t, a, b), a, b) == t
    decreases |t|
  {
    if |t| == 0 {
      assert Insert(t, a, b) == [Link(a, b)];
      assert Insert(t, a, b)[1..] == [];
    } else {
      var u := Insert(t, a, b);
      assert u[1..] == Insert(t[1..], a, b);
      assert Link(a, b) !in t[1..];
      RemoveUndoesInsert(t[1..], a, b);
      assert t == [t[0]] + t[1..];
    }
  }

  /** Appending a row with target `b` raises the target count of `b` by one. */
  lemma {:induction false} CountTargetAppend(t: seq<Link>, l: Link, b: nat)
    ensures CountTarget(t + [l], b) == CountTarget(t, b) + (if l.target == b then 1 else 0)
  {
    if |t| == 0 {
      assert t + [l] == [l];
      assert [l][1..] == [];
    } else {
      assert (t + [l])[1..] == t[1..] + [l];
      CountTargetAppend(t[1..], l, b);
    }
  }

  /** Removing the (a, b) rows lowers the target count of `b` by their number. */
  lemma {:induction false} CountTargetRemove(t: seq<Link>, a: nat, b: nat)
    ensures CountTarget(Remove(t, a, b), b) == CountTarget(t, b) - Count(t, Link(a, b))
  {
    if |t| > 0 {
      assert t == [t[0]] + t[1..];
      CountTargetRemove(t[1..], a, b);
      var rest := Remove(t[1..], a, b);
      if t[0] != Link(a, b) {
        assert ([t[0]] + rest)[1..] == rest;
      }
    }
  }
}

=== FILE: permissions.dfy ===
/** The two permission classes of the API, over an explicit request
    (method and requesting identity).
 */
module Permissions {
  import opened Store

  datatype Method = GET | HEAD | OPTIONS | POST | PUT | PATCH | DELETE

  /** Django REST framework's SAFE_METHODS. */
  predicate IsSafe(m: Method) {
    m == GET || m == HEAD || m == OPTIONS
  }

  /** The identity making a request. */
  datatype Requester = Anonymous | Authenticated(user: User)

  /** `IsAdminOrSuperuserOrReadOnly.has_permission` */
  predicate HasPermission(m: Method, who: Requester) {
    IsSafe(m) || (who.Authenticated? && (IsAdmin(who.user) || who.user.isSuperuser))
  }

  /** `IsAuthorStaffOrReadOnly.has_object_permission` for an authenticated
      user and an object whose author is `author`. */
  predicate HasObjectPermission(m: Method, user: User, author: nat) {
    IsSafe(m) || author == user.id || IsAdmin(user) || user.isSuperuser
  }

  /** Reading is open to everyone; writing needs an authenticated admin or
      superuser, so an anonymous or plain-role user cannot write. */
  lemma WriteNeedsStaff(m: Method, who: Requester)
    ensures IsSafe(m) ==> HasPermission(m, who)
    ensures !IsSafe(m) ==> (HasPermission(m, who) <==>
      who.Authenticated? && (who.user.role == "admin" || who.user.isSuperuser))
    ensures !IsSafe(m) && who.Anonymous? ==> !HasPermission(m, who)
    ensures !IsSafe(m) && who.Authenticated? && IsUser(who.user) && !who.user.isSuperuser
      ==> !HasPermission(m, who)
  {
  }

  /** Whoever passes the admin check for a method also passes the object check
      on any object, and a plain user passes the object check for a write
      exactly on the objects they authored. */
  lemma ObjectPermissionExtendsStaff(m: Method, user: User, author: nat)
    ensures HasPermission(m, Authenticated(user)) ==> HasObjectPermission(m, user, author)
    ensures !IsSafe(m) && IsUser(user) && !user.isSuperuser ==>
      (HasObjectPermission(m, user, author) <==> author == user.id)
  {
  }

  /** A user created with the default role gets no write permission from
      either class except on their own objects. */
  lemma NewUserPermissions(m: Method, id: nat, username: string, email: string, password: string, author: nat)
    requires !IsSafe(m)
    ensures !HasPermission(m, Authenticated(NewUser(id, username, email, password)))
    ensures HasObjectPermission(m, NewUser(id, username, email, password), author) <==> author == id
  {
  }
}

=== FILE: report.dfy ===
/** `RecipeViewSet.download_shopping_cart`: the shopping list of a user's cart.

    The ingredient lines of every recipe in the cart are grouped by
    (ingredient name, measurement unit) and their amounts summed.  The text
    names the user and the cart's recipes, then gives one line per group and
    ends with the date.  The date (`datetime.date.today()`) is a parameter, and
    so is the order in which the database returns the groups, which the code
    leaves unspecified.
 */
module Report {
  import opened Text
  import opened Links
  import opened Store

  /** One row of the joined query: a line's ingredient name, unit and amount. */
  datatype Item = Item(name: string, unit: string, amount: int)

  /** The grouping key `('ingredient__name', 'ingredient__measurement_unit')`. */
  datatype Key = Key(name: string, unit: string)

  function KeyOf(i: Item): Key {
    Key(i.name, i.unit)
  }

  /** The distinct keys among `items`. */
  function KeysOf(items: seq<Item>): set<Key> {
    set i | i in items :: KeyOf(i)
  }

  /** The lines `ls`, each joined with its ingredient.  This is an inner join,
      so a line whose ingredient is missing yields no row. */
  function ItemsOfLines(ls: seq<Line>, ingredients: seq<Ingredient>): seq<Item> {
    if |ls| == 0 then []
    else
      var rest := ItemsOfLines(ls[1..], ingredients);
      match FindIngredient(ingredients, ls[0].ingredient)
      case None => rest
      case Some(ing) => [Item(ing.name, ing.unit, ls[0].amount)] + rest
  }

  /** The rows of `RecipeIngredient.objects.filter(recipe__recipe_cart__user=user)`:
      the lines of the recipe of each cart row of `user`, in cart-row order.
      As in the SQL join, a recipe that sits in the cart twice contributes
      its lines twice. */
  function CartItems(cart: seq<Link>, lines: seq<Line>, ingredients: seq<Ingredient>, user: nat)
    : seq<Item>
  {
    if |cart| == 0 then []
    else RowItems(cart[0], lines, ingredients, user) + CartItems(cart[1..], lines, ingredients, user)
  }

  /** The rows one cart row contributes to `user`'s list: its recipe's lines
      when the row is the user's, none otherwise. */
  function RowItems(row: Link, lines: seq<Line>, ingredients: seq<Ingredient>, user: nat): seq<Item> {
    if row.actor == user then ItemsOfLines(LinesOf(lines, row.target), ingredients) else []
  }

  /** Reference definition: the sum of the amounts of the items with key `k`. */
  function SumFor(items: seq<Item>, k: Key): int {
    if |items| == 0 then 0
    else (if KeyOf(items[0]) == k then items[0].amount else 0) + SumFor(items[1..], k)
  }

  lemma {:induction false} SumForAbsent(items: seq<Item>, k: Key)
    requires k !in KeysOf(items)
    ensures SumFor(items, k) == 0
  {
    if |items| > 0 {
      assert items[0] in items;
      assert KeysOf(items[1..]) <= KeysOf(items) by {
        forall x | x in KeysOf(items[1..]) ensures x in KeysOf(items) {
          var i :| i in items[1..] && KeyOf(i) == x;
          assert i in items;
        }
      }
      SumForAbsent(items[1..], k);
    }
  }

  /** `.values(name, unit).annotate(total_amount=Sum('amount'))`: a fold of
      the rows into a map from each key present to the sum of its amounts. */
  function Totals(items: seq<Item>): (m: map<Key, int>)
    ensures m.Keys == KeysOf(items)
    ensures forall k | k in m :: m[k] == SumFor(items, k)
  {
    if |items| == 0 then map[]
    else
      var m := Totals(items[1..]);
      var k := KeyOf(items[0]);
      KeysOfCons(items);
      if k in m then m[k := items[0].amount + m[k]]
      else
        SumForAbsent(items[1..], k);
        m[k := items[0].amount]
  }

  lemma KeysOfCons(items: seq<Item>)
    requires |items| > 0
    ensures KeysOf(items) == KeysOf(items[1..]) + {KeyOf(items[0])}
  {
    forall x | x in KeysOf(items) ensures x in KeysOf(items[1..]) + {KeyOf(items[0])} {
      var i :| i in items && KeyOf(i) == x;
      if i != items[0] {
        var j :| 0 <= j < |items| && items[j] == i;
        assert items[1..][j - 1] == i;
      }
    }
    forall x | x in KeysOf(items[1..]) ensures x in KeysOf(items) {
      var i :| i in items[1..] && KeyOf(i) == x;
      assert i in items;
    }
  }

  lemma {:induction false} SumForAppend(a: seq<Item>, b: seq<Item>, k: Key)
    ensures SumFor(a + b, k) == SumFor(a, k) + SumFor(b, k)
  {
    if |a| == 0 {
      assert a + b == b;
    } else {
      assert (a + b)[1..] == a[1..] + b;
      SumForAppend(a[1..], b, k);
    }
  }

  /** The sums do not depend on the order of the rows. */
  lemma {:induction false} SumForPermutation(a: seq<Item>, b: seq<Item>, k: Key)
    requires multiset(a) == multiset(b)
    ensures SumFor(a, k) == SumFor(b, k)
    decreases |a|
  {
    if |a| == 0 {
      assert |multiset(b)| == 0;
      assert b == [];
    } else {
      var x := a[0];
      assert x in multiset(b) by {
        assert x in multiset(a);
      }
      var j :| 0 <= j < |b| && b[j] == x;
      var rest := b[..j] + b[j + 1..];
      assert SumFor(a[1..], k) == SumFor(rest, k) by {
        DropAt(b, j);
        DropAt(a, 0);
        assert a[..0] + a[1..] == a[1..];
        SumForPermutation(a[1..], rest, k);
      }
      assert SumFor(b, k) == SumFor([x], k) + SumFor(rest, k) by {
        SumForDropAt(b, j, k);
      }
      assert SumFor(a, k) == SumFor([x], k) + SumFor(a[1..], k) by {
        SumForDropAt(a, 0, k);
        assert a[..0] + a[1..] == a[1..];
      }
    }
  }

  /** The sum over a list is the dropped element's share plus the sum over the rest. */
  lemma SumForDropAt(b: seq<Item>, j: nat, k: Key)
    requires j < |b|
    ensures SumFor(b, k) == SumFor([b[j]], k) + SumFor(b[..j] + b[j + 1..], k)
  {
    assert b == (b[..j] + [b[j]]) + b[j + 1..];
    SumForAppend(b[..j] + [b[j]], b[j + 1..], k);
    SumForAppend(b[..j], [b[j]], k);
    SumForAppend(b[..j], b[j + 1..], k);
  }

  /** Dropping the element at `j` drops one copy of it from the multiset. */
  lemma DropAt<T>(b: seq<T>, j: nat)
    requires j < |b|
    ensures multiset(b[..j] + b[j + 1..]) == multiset(b) - multiset{b[j]}
  {
    assert b == b[..j] + [b[j]] + b[j + 1..];
    assert multiset(b) == multiset(b[..j]) + multiset{b[j]} + multiset(b[j + 1..]);
  }

  /** The grouped totals are the same whichever order the join returns its
      rows in: only the multiset of rows matters. */
  lemma TotalsIgnoreOrder(a: seq<Item>, b: seq<Item>)
    requires multiset(a) == multiset(b)
    ensures Totals(a) == Totals(b)
  {
    assert KeysOf(a) == KeysOf(b) by {
      forall x | x in KeysOf(a) ensures x in KeysOf(b) {
        var i :| i in a && KeyOf(i) == x;
        assert i in multiset(b);
      }
      forall x | x in KeysOf(b) ensures x in KeysOf(a) {
        var i :| i in b && KeyOf(i) == x;
        assert i in multiset(a);
      }
    }
    forall k | k in Totals(a) ensures Totals(a)[k] == Totals(b)[k] {
      SumForPermutation(a, b, k);
    }
  }

  // ----- the text -----

  /** `" ".join((name, str(total), unit))` followed by a newline. */
  function ItemLine(k: Key, total: int): string {
    Join([k.name, IntToString(total), k.unit], " ") + "\n"
  }

  /** Each list line is the name, the total and the unit, separated by single
      spaces and ended by a newline. */
  lemma ItemLineFormat(k: Key, total: int)
    ensures ItemLine(k, total) == k.name + " " + IntToString(total) + " " + k.unit + "\n"
  {
    var parts := [k.name, IntToString(total), k.unit];
    assert parts[1..] == [IntToString(total), k.unit];
    assert parts[1..][1..] == [k.unit];
    assert Join(parts[1..][1..], " ") == k.unit;
    assert Join(parts[1..], " ") == IntToString(total) + " " + k.unit;
    assert Join(parts, " ") == k.name + " " + (IntToString(total) + " " + k.unit);
  }

  function Concat(ls: seq<string>): string {
    if |ls| == 0 then "" else ls[0] + Concat(ls[1..])
  }

  /** `order` lists each key of `keys` exactly once. */
  predicate Enumerates(order: seq<Key>, keys: set<Key>) {
    && (forall i | 0 <= i < |order| :: order[i] in keys)
    && (forall k | k in keys :: k in order)
    && (forall i, j | 0 <= i < j < |order| :: order[i] != order[j])
  }

  /** A list without repetitions is as long as the set of its elements. */
  lemma {:induction false} DistinctLength(order: seq<Key>, keys: set<Key>)
    requires Enumerates(order, keys)
    ensures |order| == |keys|
    decreases |order|
  {
    if |order| == 0 {
      assert keys == {};
    } else {
      var rest := keys - {order[0]};
      forall i | 0 <= i < |order| - 1 ensures order[1..][i] in rest {
        assert order[1..][i] == order[i + 1];
      }
      forall k | k in rest ensures k in order[1..] {
        var i :| 0 <= i < |order| && order[i] == k;
      }
      DistinctLength(order[1..], rest);
    }
  }

  /** The groups in the order the database returns them, one text line each. */
  function ListLines(m: map<Key, int>, order: seq<Key>): (r: seq<string>)
    requires forall i | 0 <= i < |order| :: order[i] in m
  {
    seq(|order|, i requires 0 <= i < |order| => ItemLine(order[i], m[order[i]]))
  }

  /** Exactly one line per distinct (name, unit) among the rows, each
      carrying that key's summed amount. */
  lemma OneLinePerKey(items: seq<Item>, order: seq<Key>)
    requires Enumerates(order, KeysOf(items))
    ensures var ls := ListLines(Totals(items), order);
      && |ls| == |KeysOf(items)|
      && (forall i | 0 <= i < |ls| :: order[i] in KeysOf(items) && ls[i] == ItemLine(order[i], SumFor(items, order[i])))
      && (forall k | k in KeysOf(items) :: exists i | 0 <= i < |ls| :: ls[i] == ItemLine(k, SumFor(items, k)))
  {
    DistinctLength(order, KeysOf(items));
    var m := Totals(items);
    var ls := ListLines(m, order);
    assert forall i | 0 <= i < |ls| :: ls[i] == ItemLine(order[i], SumFor(items, order[i])) by {
      forall i | 0 <= i < |ls| ensures ls[i] == ItemLine(order[i], SumFor(items, order[i])) {
        assert m[order[i]] == SumFor(items, order[i]);
      }
    }
    forall k | k in KeysOf(items) ensures exists i | 0 <= i < |ls| :: ls[i] == ItemLine(k, SumFor(items, k)) {
      var i :| 0 <= i < |order| && order[i] == k;
      assert ls[i] == ItemLine(k, SumFor(items, k));
    }
  }

  /** Names of the recipes in `user`'s cart, in cart-row order (`ordering = ['id']`). */
  function CartRecipeNames(cart: seq<Link>, recipes: seq<Recipe>, user: nat): seq<string> {
    if |cart| == 0 then []
    else
      var rest := CartRecipeNames(cart[1..], recipes, user);
      if cart[0].actor != user then rest
      else match FindRecipe(recipes, cart[0].target)
        case None => rest
        case Some(r) => [r.name] + rest
  }

  /** With every cart row pointing at an existing recipe (the foreign key),
      the header names one recipe per cart row of the user, in row order. */
  lemma {:induction false} CartRecipeNamesFollowRows(cart: seq<Link>, recipes: seq<Recipe>, user: nat)
    requires forall l | l in cart :: FindRecipe(recipes, l.target).Some?
    ensures var ts := Targets(cart, user);
      var names := CartRecipeNames(cart, recipes, user);
      && |names| == |ts|
      && forall i | 0 <= i < |ts| ::
           FindRecipe(recipes, ts[i]).Some? && names[i] == FindRecipe(recipes, ts[i]).value.name
  {
    if |cart| > 0 {
      var tail := cart[1..];
      assert forall l | l in tail :: l in cart;
      CartRecipeNamesFollowRows(tail, recipes, user);
      var ts := Targets(cart, user);
      var names := CartRecipeNames(cart, recipes, user);
      if cart[0].actor == user {
        assert cart[0] in cart;
        var r := FindRecipe(recipes, cart[0].target).value;
        assert names == [r.name] + CartRecipeNames(tail, recipes, user);
        assert ts == [cart[0].target] + Targets(tail, user);
        NamesFollowTargetsCons(cart[0].target, Targets(tail, user), CartRecipeNames(tail, recipes, user), recipes);
      } else {
        assert ts == Targets(tail, user) && names == CartRecipeNames(tail, recipes, user);
      }
    }
  }

  /** Prepending a target and its recipe's name keeps names and targets in step. */
  lemma NamesFollowTargetsCons(t: nat, ts: seq<nat>, names: seq<string>, recipes: seq<Recipe>)
    requires FindRecipe(recipes, t).Some?
    requires |names| == |ts|
    requires forall i | 0 <= i < |ts| ::
      FindRecipe(recipes, ts[i]).Some? && names[i] == FindRecipe(recipes, ts[i]).value.name
    ensures var ts' := [t] + ts;
      var names' := [FindRecipe(recipes, t).value.name] + names;
      forall i | 0 <= i < |ts'| ::
        FindRecipe(recipes, ts'[i]).Some? && names'[i] == FindRecipe(recipes, ts'[i]).value.name
  {
    var ts' := [t] + ts;
    var names' := [FindRecipe(recipes, t).value.name] + names;
    forall i | 0 <= i < |ts'|
      ensures FindRecipe(recipes, ts'[i]).Some? && names'[i] == FindRecipe(recipes, ts'[i]).value.name
    {
      if i > 0 {
        assert ts'[i] == ts[i - 1] && names'[i] == names[i - 1];
      }
    }
  }

  function Header(username: string, names: seq<string>): string {
    "Список: " + username + ": \n" + "Для приготовления: " + Join(names, ", ") + ", " + "возьмите:\n"
  }

  function Footer(date: string): string {
    "\nFoodgram\n" + date
  }

  /** Reference text of the grouped lines: for each key of `order`, its line
      with the key's summed amount computed directly from the rows. */
  function ReferenceLines(items: seq<Item>, order: seq<Key>): (ls: seq<string>)
    ensures |ls| == |order|
    ensures forall i | 0 <= i < |order| :: ls[i] == ItemLine(order[i], SumFor(items, order[i]))
  {
    seq(|order|, i requires 0 <= i < |order| => ItemLine(order[i], SumFor(items, order[i])))
  }

  /** The shopping list of user `u` (`str(user)` is the username).  `order`
      is the order of the groups the database returns.  The text is the
      header, then exactly one line per distinct (name, unit) of the user's
      cart rows carrying that key's summed amount, then the footer. */
  function ShoppingList(s: Store, u: User, date: string, order: seq<Key>): (r: string)
    requires Enumerates(order, KeysOf(CartItems(s.cart, s.lines, s.ingredients, u.id)))
    ensures var items := CartItems(s.cart, s.lines, s.ingredients, u.id);
      && |order| == |KeysOf(items)|
      && r == Header(u.username, CartRecipeNames(s.cart, s.recipes, u.id))
              + Concat(ReferenceLines(items, order)) + Footer(date)
  {
    var items := CartItems(s.cart, s.lines, s.ingredients, u.id);
    var ls := ListLines(Totals(items), order);
    assert ls == ReferenceLines(items, order) && |order| == |KeysOf(items)| by {
      OneLinePerKey(items, order);
    }
    Header(u.username, CartRecipeNames(s.cart, s.recipes, u.id)) + Concat(ls) + Footer(date)
  }

  /** The list opens with the user's name and the names of the recipes in
      the cart, and closes with the "Foodgram" signature and the date. */
  lemma ShoppingListFrame(s: Store, u: User, date: string, order: seq<Key>)
    requires Enumerates(order, KeysOf(CartItems(s.cart, s.lines, s.ingredients, u.id)))
    ensures var r := ShoppingList(s, u, date, order);
      && StartsWith(r, "Список: " + u.username + ": \n" + "Для приготовления: "
                       + Join(CartRecipeNames(s.cart, s.recipes, u.id), ", ") + ", возьмите:\n")
      && EndsWith(r, "\nFoodgram\n" + date)
  {
    var r := ShoppingList(s, u, date, order);
    var h := Header(u.username, CartRecipeNames(s.cart, s.recipes, u.id));
    var f := Footer(date);
    var body := Concat(ReferenceLines(CartItems(s.cart, s.lines, s.ingredients, u.id), order));
    assert r == h + body + f;
    Framed(h, body, f);
  }

  /** A text put between a head and a tail starts with the head and ends with the tail. */
  lemma Framed(h: string, body: string, f: string)
    ensures StartsWith(h + body + f, h) && EndsWith(h + body + f, f)
  {
    var r := h + body + f;
    assert r[..|h|] == h;
    assert r[|r| - |f|..] == f;
  }

  lemma {:induction false} CartItemsAppend(cart: seq<Link>, l: Link, lines: seq<Line>,
                                           ingredients: seq<Ingredient>, user: nat)
    ensures CartItems(cart + [l], lines, ingredients, user)
         == CartItems(cart, lines, ingredients, user) + RowItems(l, lines, ingredients, user)
  {
    var c := cart + [l];
    if |cart| == 0 {
      assert c == [l];
      assert c[1..] == [];
    } else {
      var h := RowItems(cart[0], lines, ingredients, user);
      assert CartItems(c, lines, ingredients, user) == h + CartItems(c[1..], lines, ingredients, user) by {
        assert c[0] == cart[0];
      }
      assert c[1..] == cart[1..] + [l];
      CartItemsAppend(cart[1..], l, lines, ingredients, user);
    }
  }

  /** Putting a recipe in the cart adds that recipe's ingredient amounts to
      each total of the owner's list and leaves every other user's list alone. */
  lemma CartAddRaisesTotals(cart: seq<Link>, lines: seq<Line>, ingredients: seq<Ingredient>,
                            user: nat, recipe: nat, k: Key, other: nat)
    requires other != user
    ensures SumFor(CartItems(Insert(cart, user, recipe), lines, ingredients, user), k)
         == SumFor(CartItems(cart, lines, ingredients, user), k)
            + SumFor(ItemsOfLines(LinesOf(lines, recipe), ingredients), k)
    ensures CartItems(Insert(cart, user, recipe), lines, ingredients, other)
         == CartItems(cart, lines, ingredients, other)
  {
    CartItemsAppend(cart, Link(user, recipe), lines, ingredients, user);
    CartItemsAppend(cart, Link(user, recipe), lines, ingredients, other);
    SumForAppend(CartItems(cart, lines, ingredients, user),
                 ItemsOfLines(LinesOf(lines, recipe), ingredients), k);
  }

  /** Two recipes in the cart each needing flour in grams, 200 g and 300 g:
      the list has the single line "Мука 500 г". */
  lemma FlourExample()
    ensures var items := [Item("Мука", "г", 200), Item("Мука", "г", 300)];
      && Totals(items) == map[Key("Мука", "г") := 500]
      && ItemLine(Key("Мука", "г"), 500) == "Мука 500 г\n"
  {
    var k := Key("Мука", "г");
    var items := [Item("Мука", "г", 200), Item("Мука", "г", 300)];
    assert items[1..] == [Item("Мука", "г", 300)];
    assert items[1..][1..] == [];
    assert Totals(items[1..]) == map[k := 300];
    assert Totals(items) == map[k := 500];
    ItemLineFormat(k, 500);
    assert NatToString(5) == "5";
    assert NatToString(50) == "50";
    assert NatToString(500) == "500";
  }
}

=== FILE: results.dfy ===
/** Failure-carrying values shared by every part of the model.

    The backend signals failures by raising exceptions (a validation error,
    a 404 from `get_object_or_404`, a database integrity error).  The model
    returns them as values instead.
 */
module Results {

  datatype Option<+T> = None | Some(value: T)

  /** The three relationship tables that share the create/delete shape. */
  datatype Relation = Follows | Favorites | Cart

  /** The request fields a validation error can name. */
  datatype Field =
    | CookingTime | Amount | RecipeName | RecipeText | RecipeTags | RecipeImage
    | Username | Email | Password

  datatype Error =
    | NotFound                       // get_object_or_404 found no row
    | SelfSubscription               // POST follow of oneself
    | SelfUnsubscription             // DELETE follow of oneself
    | AlreadyLinked(rel: Relation)   // create of a row that exists
    | NotLinked(rel: Relation)       // delete of a row that does not exist
    | EmailNotUnique                 // e-mail bound to another username
    | UsernameNotUnique              // username bound to another e-mail
    | InvalidUsername                // username does not match the pattern
    | InvalidEmail                   // refused by the e-mail validator
    | OutOfRange(field: Field)       // integer outside 1..32000
    | Blank(field: Field)            // blank once stripped, or empty tag list
    | TooLong(field: Field)          // longer than the field's max_length
    | NulCharacter(field: Field)     // holds a NUL character
    | UnknownTag                     // a tag id with no Tag row
    | MissingField                   // a required key absent from the payload
    | MalformedDataUri               // unpacking the `;base64,` split failed
    | UndecodableImage               // the base64 decoder refused the payload
    | NotAFile                       // the image value is still a string
    | EmptyFile                      // the image file has no content
    | NotAnImage                     // the file's content is not an image
    | UnknownExtension               // the file name's extension is not an image extension
    | IntegrityError                 // a database uniqueness constraint fired

  datatype Result<+T> = Ok(value: T) | Err(error: Error) {
    predicate IsFailure() { Err? }

    function PropagateFailure<U>(): Result<U>
      requires Err?
    {
      Err(error)
    }

    function Extract(): T
      requires Ok?
    {
      value
    }
  }
}

=== FILE: store.dfy ===
/** The entity store: users, ingredients, tags, recipes, recipe-ingredient
    lines and the three relationship tables, with the derived properties the
    models expose (`is_admin`, `recipes_count`, `is_favorited`, ...).

    Every table is a sequence of rows in primary-key order.
 */
module Store {
  import opened Results
  import opened Links
  import Image

  const RoleUser := "user"
  const RoleAdmin := "admin"

  /** A user row; `role` is the free-text column with choices user/admin. */
  datatype User = User(
    id: nat,
    username: string,
    email: string,
    password: string,
    role: string,
    isSuperuser: bool)

  datatype Ingredient = Ingredient(id: nat, name: string, unit: string)

  datatype Tag = Tag(id: nat, name: string, color: Option<string>, slug: string)

  /** A recipe row.  `tags` is the many-to-many association; `pubDate` is the
      creation timestamp, set once; `image` is the uploaded file the
      `ImageField` saves. */
  datatype Recipe = Recipe(
    id: nat,
    author: nat,
    name: string,
    image: Image.File,
    text: string,
    cookingTime: int,
    pubDate: nat,
    tags: set<nat>)

  /** One RecipeIngredient row: an ingredient of a recipe with its amount. */
  datatype Line = Line(recipe: nat, ingredient: nat, amount: int)

  datatype Store = Store(
    users: seq<User>,
    ingredients: seq<Ingredient>,
    tags: seq<Tag>,
    recipes: seq<Recipe>,
    lines: seq<Line>,
    follows: seq<Link>,     // actor = follower, target = followed user
    favorites: seq<Link>,   // actor = user, target = recipe
    cart: seq<Link>,        // actor = user, target = recipe
    nextUserId: nat,
    nextRecipeId: nat)

  function Table(s: Store, rel: Relation): seq<Link> {
    match rel
    case Follows => s.follows
    case Favorites => s.favorites
    case Cart => s.cart
  }

  function WithTable(s: Store, rel: Relation, t: seq<Link>): (r: Store)
    ensures Table(r, rel) == t
    ensures forall other | other != rel :: Table(r, other) == Table(s, other)
    ensures r.users == s.users && r.recipes == s.recipes && r.lines == s.lines
    ensures r.ingredients == s.ingredients && r.tags == s.tags
  {
    match rel
    case Follows => s.(follows := t)
    case Favorites => s.(favorites := t)
    case Cart => s.(cart := t)
  }

  // ----- users/models.py -----

  /** `User.is_admin` */
  predicate IsAdmin(u: User) {
    u.role == RoleAdmin
  }

  /** `User.is_user` */
  predicate IsUser(u: User) {
    u.role == RoleUser
  }

  /** The two roles are exclusive; a role outside the choices has neither. */
  lemma RolesExclusive(u: User)
    ensures !(IsAdmin(u) && IsUser(u))
    ensures IsAdmin(u) <==> u.role == "admin"
    ensures IsUser(u) <==> u.role == "user"
  {
  }

  /** A freshly created user: the role column takes its default. */
  function NewUser(id: nat, username: string, email: string, password: string): (u: User)
    ensures IsUser(u) && !IsAdmin(u) && !u.isSuperuser
    ensures u.id == id && u.username == username && u.email == email
  {
    User(id, username, email, password, RoleUser, false)
  }

  function FindUser(users: seq<User>, id: nat): (r: Option<User>)
    ensures r.Some? ==> r.value in users && r.value.id == id
    ensures r.None? <==> forall u | u in users :: u.id != id
  {
    if |users| == 0 then None
    else if users[0].id == id then Some(users[0])
    else FindUser(users[1..], id)
  }

  /** The e-mail column is unique. */
  predicate EmailsUnique(users: seq<User>) {
    forall i, j | 0 <= i < j < |users| :: users[i].email != users[j].email
  }

  /** The username column (inherited from Django's user model) is unique. */
  predicate UsernamesUnique(users: seq<User>) {
    forall i, j | 0 <= i < j < |users| :: users[i].username != users[j].username
  }

  /** Recipes whose author is `author`, in table order. */
  function AuthoredBy(recipes: seq<Recipe>, author: nat): (r: seq<Recipe>)
    ensures forall x :: x in r <==> x in recipes && x.author == author
    ensures |r| <= |recipes|
  {
    if |recipes| == 0 then []
    else
      var rest := AuthoredBy(recipes[1..], author);
      assert forall x :: x in recipes <==> x == recipes[0] || x in recipes[1..];
      if recipes[0].author == author then [recipes[0]] + rest else rest
  }

  /** `User.recipes_count`: the number of recipes the user authored. */
  function RecipesCount(s: Store, user: nat): nat {
    |AuthoredBy(s.recipes, user)|
  }

  /** Counting is additive over concatenated tables. */
  lemma {:induction false} AuthoredByAppend(a: seq<Recipe>, b: seq<Recipe>, author: nat)
    ensures AuthoredBy(a + b, author) == AuthoredBy(a, author) + AuthoredBy(b, author)
  {
    if |a| == 0 {
      assert a + b == b;
    } else {
      assert (a + b)[1..] == a[1..] + b;
      AuthoredByAppend(a[1..], b, author);
    }
  }

  /** Adding a recipe by `author` raises that author's `recipes_count` by one
      and leaves every other user's unchanged. */
  lemma RecipesCountAfterAdd(s: Store, r: Recipe, user: nat)
    ensures RecipesCount(s.(recipes := s.recipes + [r]), user)
         == RecipesCount(s, user) + (if r.author == user then 1 else 0)
  {
    AuthoredByAppend(s.recipes, [r], user);
    assert [r][1..] == [];
  }

  // ----- recipes/models.py -----

  function FindRecipe(recipes: seq<Recipe>, id: nat): (r: Option<Recipe>)
    ensures r.Some? ==> r.value in recipes && r.value.id == id
    ensures r.None? <==> forall x | x in recipes :: x.id != id
  {
    if |recipes| == 0 then None
    else if recipes[0].id == id then Some(recipes[0])
    else FindRecipe(recipes[1..], id)
  }

  function FindIngredient(ingredients: seq<Ingredient>, id: int): (r: Option<Ingredient>)
    ensures r.Some? ==> r.value in ingredients && r.value.id == id
    ensures r.None? <==> forall x | x in ingredients :: x.id != id
  {
    if |ingredients| == 0 then None
    else if ingredients[0].id == id then Some(ingredients[0])
    else FindIngredient(ingredients[1..], id)
  }

  /** The `unique ingredient` constraint: one ingredient per (name, unit). */
  predicate IngredientsUnique(ingredients: seq<Ingredient>) {
    forall i, j | 0 <= i < j < |ingredients| ::
      (ingredients[i].name, ingredients[i].unit) != (ingredients[j].name, ingredients[j].unit)
  }

  /** Inserting an ingredient row; the database refuses a second row with the
      same (name, unit). */
  function CreateIngredient(ingredients: seq<Ingredient>, id: nat, name: string, unit: string)
    : (r: Result<seq<Ingredient>>)
    ensures r.Err? <==> exists x | x in ingredients :: x.name == name && x.unit == unit
    ensures r.Ok? ==> r.value == ingredients + [Ingredient(id, name, unit)]
    ensures r.Ok? && IngredientsUnique(ingredients) ==> IngredientsUnique(r.value)
  {
    if exists x | x in ingredients :: x.name == name && x.unit == unit then Err(IntegrityError)
    else
      var r := ingredients + [Ingredient(id, name, unit)];
      assert forall i | 0 <= i < |ingredients| :: ingredients[i] in ingredients;
      Ok(r)
  }

  /** `Recipe.is_favorited(user)` */
  predicate IsFavorited(s: Store, recipe: nat, user: nat) {
    Present(s.favorites, user, recipe)
  }

  /** `Recipe.is_in_shopping_cart(user)` */
  predicate IsInShoppingCart(s: Store, recipe: nat, user: nat) {
    Present(s.cart, user, recipe)
  }

  /** `Recipe.total_favorite`: the number of favourite rows of the recipe. */
  function TotalFavorite(s: Store, recipe: nat): nat {
    CountTarget(s.favorites, recipe)
  }

  /** Nobody has favourited a recipe exactly when its favourite count is zero. */
  lemma TotalFavoriteZero(s: Store, recipe: nat)
    ensures TotalFavorite(s, recipe) == 0 <==> forall u :: !IsFavorited(s, recipe, u)
  {
    if TotalFavorite(s, recipe) == 0 {
      forall u ensures !IsFavorited(s, recipe, u) {
      }
    } else {
      var i :| 0 <= i < |s.favorites| && s.favorites[i].target == recipe;
      assert IsFavorited(s, recipe, s.favorites[i].actor);
    }
  }

  /** The lines of one recipe, in primary-key order (the model's `ordering = ['id']`). */
  function LinesOf(lines: seq<Line>, recipe: nat): (r: seq<Line>)
    ensures forall l :: l in r <==> l in lines && l.recipe == recipe
    ensures |r| <= |lines|
  {
    if |lines| == 0 then []
    else
      var rest := LinesOf(lines[1..], recipe);
      assert forall l :: l in lines <==> l == lines[0] || l in lines[1..];
      if lines[0].recipe == recipe then [lines[0]] + rest else rest
  }

  lemma {:induction false} LinesOfAppend(a: seq<Line>, b: seq<Line>, recipe: nat)
    ensures LinesOf(a + b, recipe) == LinesOf(a, recipe) + LinesOf(b, recipe)
  {
    if |a| == 0 {
      assert a + b == b;
    } else {
      assert (a + b)[1..] == a[1..] + b;
      LinesOfAppend(a[1..], b, recipe);
    }
  }

  /** A recipe no line refers to has no lines. */
  lemma {:induction false} LinesOfAbsent(lines: seq<Line>, recipe: nat)
    requires forall l | l in lines :: l.recipe != recipe
    ensures LinesOf(lines, recipe) == []
  {
    if |lines| > 0 {
      assert lines[0] in lines;
      LinesOfAbsent(lines[1..], recipe);
    }
  }

  /** Every line of `recipe` dropped, all others kept in order: the effect of
      `RecipeIngredient.objects.filter(recipe=instance).delete()`. */
  function DropLinesOf(lines: seq<Line>, recipe: nat): (r: seq<Line>)
    ensures LinesOf(r, recipe) == []
    ensures forall other | other != recipe :: LinesOf(r, other) == LinesOf(lines, other)
  {
    if |lines| == 0 then []
    else
      var rest := DropLinesOf(lines[1..], recipe);
      if lines[0].recipe == recipe then rest
      else
        assert ([lines[0]] + rest)[1..] == rest;
        [lines[0]] + rest
  }

  // ----- ordering = ['-pub_date'] -----

  /** Newest first: publication dates never increase along the sequence. */
  predicate NewestFirst(rs: seq<Recipe>) {
    forall i, j | 0 <= i < j < |rs| :: rs[i].pubDate >= rs[j].pubDate
  }

  function InsertByDate(r: Recipe, rs: seq<Recipe>): (o: seq<Recipe>)
    requires NewestFirst(rs)
    ensures NewestFirst(o)
    ensures multiset(o) == multiset(rs) + multiset{r}
  {
    if |rs| == 0 || r.pubDate >= rs[0].pubDate then
      NewestFirstCons(r, rs);
      [r] + rs
    else
      var rest := InsertByDate(r, rs[1..]);
      assert rs == [rs[0]] + rs[1..];
      assert forall x | x in rest :: x.pubDate <= rs[0].pubDate by {
        forall x | x in rest
          ensures x.pubDate <= rs[0].pubDate
        {
          assert x in multiset(rest);
          assert x == r || x in multiset(rs[1..]);
        }
      }
      NewestFirstCons(rs[0], rest);
      [rs[0]] + rest
  }

  /** A recipe no older than the head of a newest-first list may go in front of it. */
  lemma NewestFirstCons(h: Recipe, rs: seq<Recipe>)
    requires NewestFirst(rs)
    requires |rs| == 0 || h.pubDate >= rs[0].pubDate || forall x | x in rs :: x.pubDate <= h.pubDate
    ensures NewestFirst([h] + rs)
  {
    var o := [h] + rs;
    forall i, j | 0 <= i < j < |o|
      ensures o[i].pubDate >= o[j].pubDate
    {
      if i == 0 {
        assert o[j] == rs[j - 1];
        if !(forall x | x in rs :: x.pubDate <= h.pubDate) {
          assert rs[0].pubDate >= rs[j - 1].pubDate;
        } else {
          assert rs[j - 1] in rs;
        }
      } else {
        assert o[i] == rs[i - 1] && o[j] == rs[j - 1];
      }
    }
  }

  /** The recipe list as the default ordering returns it. */
  function SortNewestFirst(rs: seq<Recipe>): (o: seq<Recipe>)
    ensures NewestFirst(o)
    ensures multiset(o) == multiset(rs)
  {
    if |rs| == 0 then []
    else
      assert rs == [rs[0]] + rs[1..];
      InsertByDate(rs[0], SortNewestFirst(rs[1..]))
  }
}

=== FILE: text.dfy ===
/** String operations the backend takes from Python's `str`: `startswith`,
    `split` on a non-empty separator, `join`, `rsplit` once, `strip()` and
    `str()` of an integer.
 */
module Text {
  import opened Results

  predicate StartsWith(s: string, prefix: string) {
    |prefix| <= |s| && s[..|prefix|] == prefix
  }

  predicate EndsWith(s: string, suffix: string) {
    |suffix| <= |s| && s[|s| - |suffix|..] == suffix
  }

  /** `sep` occurs in `s` starting at index `i`. */
  predicate OccursAt(s: string, sep: string, i: int) {
    0 <= i && i + |sep| <= |s| && s[i..i + |sep|] == sep
  }

  predicate Contains(s: string, sep: string) {
    exists i | 0 <= i <= |s| :: OccursAt(s, sep, i)
  }

  /** The leftmost occurrence of `sep` in `s` at or after index `k`. */
  function FindFrom(s: string, sep: string, k: nat): (r: Option<nat>)
    ensures r.Some? ==> k <= r.value && OccursAt(s, sep, r.value)
    ensures r.Some? ==> forall j :: k <= j < r.value ==> !OccursAt(s, sep, j)
    ensures r.None? ==> forall j :: k <= j ==> !OccursAt(s, sep, j)
    decreases |s| - k
  {
    if k + |sep| > |s| then None
    else if s[k..k + |sep|] == sep then Some(k)
    else FindFrom(s, sep, k + 1)
  }

  /** Python's `s.split(sep)`: cut at every leftmost, non-overlapping occurrence. */
  function Split(s: string, sep: string): (parts: seq<string>)
    requires |sep| > 0
    ensures |parts| >= 1
    decreases |s|
  {
    match FindFrom(s, sep, 0)
    case None => [s]
    case Some(i) => [s[..i]] + Split(s[i + |sep|..], sep)
  }

  /** Python's `sep.join(parts)`; the empty list joins to the empty string. */
  function Join(parts: seq<string>, sep: string): string
  {
    if |parts| == 0 then ""
    else if |parts| == 1 then parts[0]
    else parts[0] + sep + Join(parts[1..], sep)
  }

  function Last<T>(xs: seq<T>): T
    requires |xs| > 0
  {
    xs[|xs| - 1]
  }

  /** One step of Split: the piece before the leftmost occurrence at `i`,
      then the split of the text after it. */
  lemma SplitStep(s: string, sep: string, i: nat)
    requires |sep| > 0 && FindFrom(s, sep, 0) == Some(i)
    ensures i + |sep| <= |s|
    ensures Split(s, sep) == [s[..i]] + Split(s[i + |sep|..], sep)
    ensures s == s[..i] + sep + s[i + |sep|..]
  {
    assert OccursAt(s, sep, i);
    assert s == s[..i] + sep + s[i + |sep|..] by {
      assert s[i..i + |sep|] == sep;
      assert s == s[..i] + s[i..i + |sep|] + s[i + |sep|..];
    }
  }

  lemma JoinCons(a: string, tail: seq<string>, sep: string)
    requires |tail| >= 1
    ensures Join([a] + tail, sep) == a + sep + Join(tail, sep)
  {
    assert ([a] + tail)[1..] == tail;
  }

  /** Joining the pieces of a split with the same separator gives back the input. */
  lemma {:induction false} SplitJoin(s: string, sep: string)
    requires |sep| > 0
    ensures Join(Split(s, sep), sep) == s
    decreases |s|
  {
    match FindFrom(s, sep, 0)
    case None =>
    case Some(i) =>
      var rest := s[i + |sep|..];
      SplitStep(s, sep, i);
      JoinCons(s[..i], Split(rest, sep), sep);
      SplitJoin(rest, sep);
  }

  lemma PrefixHasNoOccurrence(s: string, sep: string, i: nat)
    requires |sep| > 0 && i <= |s|
    requires forall j :: 0 <= j < i ==> !OccursAt(s, sep, j)
    ensures !Contains(s[..i], sep)
  {
    if Contains(s[..i], sep) {
      var j :| 0 <= j <= i && OccursAt(s[..i], sep, j);
      assert j + |sep| <= i;
      assert s[..i][j..j + |sep|] == s[j..j + |sep|];
      assert OccursAt(s, sep, j);
    }
  }

  /** No piece of a split contains the separator. */
  lemma {:induction false} SplitPartsFree(s: string, sep: string)
    requires |sep| > 0
    ensures forall p | p in Split(s, sep) :: !Contains(p, sep)
    decreases |s|
  {
    match FindFrom(s, sep, 0)
    case None =>
    case Some(i) =>
      PrefixHasNoOccurrence(s, sep, i);
      SplitPartsFree(s[i + |sep|..], sep);
  }

  /** The last piece of a split (Python's `s.split(sep)[-1]`) is the text after
      the last occurrence of `sep`: a suffix of `s`, free of `sep`, and either
      all of `s` or preceded by `sep`. */
  lemma LastPart(s: string, sep: string)
    requires |sep| > 0
    ensures var last := Last(Split(s, sep));
      && EndsWith(s, last)
      && !Contains(last, sep)
      && (|last| == |s| || EndsWith(s[..|s| - |last|], sep))
  {
    var parts := Split(s, sep);
    var last := Last(parts);
    assert !Contains(last, sep) by {
      SplitPartsFree(s, sep);
      assert last in parts;
    }
    assert Join(parts, sep) == s by {
      SplitJoin(s, sep);
    }
    JoinLast(parts, sep, s);
  }

  /** A join ends with its last piece, which is either the whole join or
      preceded by the separator. */
  lemma {:induction false} JoinLast(parts: seq<string>, sep: string, s: string)
    requires |parts| > 0 && Join(parts, sep) == s
    ensures EndsWith(s, Last(parts))
    ensures |Last(parts)| == |s| || EndsWith(s[..|s| - |Last(parts)|], sep)
  {
    if |parts| > 1 {
      var tail := parts[1..];
      var j', last := Join(tail, sep), Last(tail);
      JoinLast(tail, sep, j');
      assert Last(parts) == last;
      var head := parts[0] + sep;
      assert s == head + j';
      var k' := |j'| - |last|;
      assert s[|head| + k'..] == j'[k'..];
      assert s[..|head| + k'] == head + j'[..k'];
      if k' > 0 {
        assert (head + j'[..k'])[|head| + k' - |sep|..] == j'[..k'][k' - |sep|..];
      } else {
        assert (head + j'[..k'])[|head| + k' - |sep|..] == sep;
      }
    }
  }

  /** A string holding the separator exactly once, between two pieces that do
      not even hold its first character, splits into exactly those two pieces. */
  lemma SplitAtSole(a: string, sep: string, b: string)
    requires |sep| > 0
    requires sep[0] !in a && sep[0] !in b
    ensures Split(a + sep + b, sep) == [a, b]
  {
    var s := a + sep + b;
    forall j | 0 <= j < |a|
      ensures !OccursAt(s, sep, j)
    {
      assert s[j] == a[j];
      assert a[j] in a;
    }
    assert s[|a|..|a| + |sep|] == sep;
    assert OccursAt(s, sep, |a|);
    NoFirstCharNoOccurrence(b, sep);
    assert FindFrom(s, sep, 0) == Some(|a|);
    assert s[..|a|] == a;
    assert s[|a| + |sep|..] == b;
    assert FindFrom(b, sep, 0) == None;
  }

  lemma NoFirstCharNoOccurrence(b: string, sep: string)
    requires |sep| > 0 && sep[0] !in b
    ensures forall j :: 0 <= j ==> !OccursAt(b, sep, j)
  {
    forall j | 0 <= j
      ensures !OccursAt(b, sep, j)
    {
      if j < |b| {
        assert b[j] in b;
      }
    }
  }

  /** The index of the last `c` in `s`, where Python's `s.rsplit(c, 1)` cuts. */
  function LastIndexOf(s: string, c: char): (r: Option<nat>)
    ensures r.Some? ==> r.value < |s| && s[r.value] == c && c !in s[r.value + 1..]
    ensures r.None? <==> c !in s
    decreases |s|
  {
    if |s| == 0 then None
    else if s[|s| - 1] == c then Some(|s| - 1)
    else
      var r := LastIndexOf(s[..|s| - 1], c);
      assert s == s[..|s| - 1] + [s[|s| - 1]];
      if r.Some? then
        assert s[r.value + 1..] == s[..|s| - 1][r.value + 1..] + [s[|s| - 1]];
        r
      else r
  }

  /** Python's `str.isspace` for one character: the characters `str.strip()`
      with no argument removes. */
  predicate IsSpace(c: char) {
    || ('\t' <= c <= '\r') || ('\U{1C}' <= c <= ' ')
    || c == '\U{85}' || c == '\U{A0}' || c == '\U{1680}'
    || ('\U{2000}' <= c <= '\U{200A}') || c == '\U{2028}' || c == '\U{2029}'
    || c == '\U{202F}' || c == '\U{205F}' || c == '\U{3000}'
  }

  predicate AllSpace(s: string) {
    forall k | 0 <= k < |s| :: IsSpace(s[k])
  }

  /** Neither the first nor the last character is whitespace. */
  predicate Trimmed(s: string) {
    s == "" || (!IsSpace(s[0]) && !IsSpace(s[|s| - 1]))
  }

  /** `r` sits at index `i` of `s`, and everything of `s` around it is whitespace. */
  predicate PaddedAt(s: string, r: string, i: int) {
    && 0 <= i && i + |r| <= |s| && s[i..i + |r|] == r
    && (forall k | 0 <= k < i :: IsSpace(s[k]))
    && (forall k | i + |r| <= k < |s| :: IsSpace(s[k]))
  }

  function StripStart(s: string): (r: string)
    ensures |r| <= |s| && r == s[|s| - |r|..]
    ensures forall k | 0 <= k < |s| - |r| :: IsSpace(s[k])
    ensures r == "" || !IsSpace(r[0])
    decreases |s|
  {
    if |s| > 0 && IsSpace(s[0]) then StripStart(s[1..]) else s
  }

  function StripEnd(s: string): (r: string)
    ensures |r| <= |s| && r == s[..|r|]
    ensures forall k | |r| <= k < |s| :: IsSpace(s[k])
    ensures r == "" || !IsSpace(r[|r| - 1])
    decreases |s|
  {
    if |s| > 0 && IsSpace(s[|s| - 1]) then StripEnd(s[..|s| - 1]) else s
  }

  /** A slice of `s` with whitespace on both sides of it is a padded copy. */
  lemma PaddedSlice(s: string, t: string, r: string, i: nat)
    requires i <= |s| && t == s[i..] && |r| <= |t| && r == t[..|r|]
    requires forall k | 0 <= k < i :: IsSpace(s[k])
    requires forall k | |r| <= k < |t| :: IsSpace(t[k])
    ensures PaddedAt(s, r, i)
  {
    assert s[i..i + |r|] == r;
    forall k | i + |r| <= k < |s| ensures IsSpace(s[k]) {
      assert s[k] == t[k - i];
    }
  }

  /** Python's `s.strip()`: `s` without its leading and trailing whitespace. */
  function Strip(s: string): (r: string)
    ensures Trimmed(r) && |r| <= |s|
  {
    var t := StripStart(s);
    StripEndKeepsStart(t);
    StripEnd(t)
  }

  /** What `strip` leaves sits inside `s` with only whitespace around it. */
  lemma StripIsPadded(s: string)
    ensures exists i :: PaddedAt(s, Strip(s), i)
  {
    var t := StripStart(s);
    PaddedSlice(s, t, Strip(s), |s| - |t|);
  }

  lemma StripEndKeepsStart(t: string)
    requires t == "" || !IsSpace(t[0])
    ensures Trimmed(StripEnd(t))
  {
    var r := StripEnd(t);
    if r != "" {
      assert r[0] == t[0];
    }
  }

  /** There is only one way to cut whitespace off both ends so that none is
      left: any such cut is `Strip`. */
  lemma StripUnique(s: string, r: string, i: int)
    requires PaddedAt(s, r, i) && Trimmed(r)
    ensures Strip(s) == r
  {
    var q := Strip(s);
    StripIsPadded(s);
    var j :| PaddedAt(s, q, j);
    if r != "" && q != "" {
      assert r[0] == s[i] && q[0] == s[j];
      assert i == j;
      assert r[|r| - 1] == s[i + |r| - 1] && q[|q| - 1] == s[j + |q| - 1];
      assert |r| == |q|;
    }
  }

  /** Whitespace around a string does not change what `strip` leaves. */
  lemma StripIgnoresPadding(a: string, s: string, b: string)
    requires AllSpace(a) && AllSpace(b)
    ensures Strip(a + s + b) == Strip(s)
  {
    var r := Strip(s);
    StripIsPadded(s);
    var i :| PaddedAt(s, r, i);
    var t := a + s + b;
    PaddedInside(a, s, b, r, i);
    StripUnique(t, r, |a| + i);
  }

  lemma PaddedInside(a: string, s: string, b: string, r: string, i: int)
    requires AllSpace(a) && AllSpace(b) && PaddedAt(s, r, i)
    ensures PaddedAt(a + s + b, r, |a| + i)
  {
    var t := a + s + b;
    var j := |a| + i;
    assert t[j..j + |r|] == s[i..i + |r|];
    forall k | 0 <= k < j ensures IsSpace(t[k]) {
      if k >= |a| { assert t[k] == s[k - |a|]; } else { assert t[k] == a[k]; }
    }
    forall k | j + |r| <= k < |t| ensures IsSpace(t[k]) {
      if k < |a| + |s| { assert t[k] == s[k - |a|]; } else { assert t[k] == b[k - |a| - |s|]; }
    }
  }

  /** `strip` leaves nothing exactly when the string is all whitespace. */
  lemma StripEmptyIffAllSpace(s: string)
    ensures Strip(s) == "" <==> AllSpace(s)
  {
    var r := Strip(s);
    StripIsPadded(s);
    var i :| PaddedAt(s, r, i);
    if r != "" {
      assert r[0] == s[i];
    }
  }

  /** Stripping twice is stripping once. */
  lemma StripIdempotent(s: string)
    ensures Strip(Strip(s)) == Strip(s)
  {
    var r := Strip(s);
    assert PaddedAt(r, r, 0) by { assert r[0..|r|] == r; }
    StripUnique(r, r, 0);
  }

  predicate IsDigit(c: char) {
    '0' <= c <= '9'
  }

  function DigitChar(d: nat): (c: char)
    requires d < 10
    ensures IsDigit(c) && DigitValue(c) == d
  {
    ('0' as int + d) as char
  }

  function DigitValue(c: char): nat
    requires IsDigit(c)
  {
    c as int - '0' as int
  }

  /** Python's `str(n)` for a non-negative integer: decimal, no leading zero. */
  function NatToString(n: nat): (r: string)
    ensures |r| >= 1
    ensures forall c | c in r :: IsDigit(c)
    ensures r[0] == '0' ==> n == 0
    decreases n
  {
    if n < 10 then [DigitChar(n)] else NatToString(n / 10) + [DigitChar(n % 10)]
  }

  /** Reads a string of decimal digits back as a number. */
  function ParseNat(s: string): nat
    requires forall c | c in s :: IsDigit(c)
  {
    if |s| == 0 then 0 else ParseNat(s[..|s| - 1]) * 10 + DigitValue(s[|s| - 1])
  }

  lemma {:induction false} NatStringRoundTrip(n: nat)
    ensures ParseNat(NatToString(n)) == n
    decreases n
  {
    var r := NatToString(n);
    if n < 10 {
      assert r == [DigitChar(n)];
      assert r[..0] == [];
    } else {
      var p := NatToString(n / 10);
      assert r == p + [DigitChar(n % 10)];
      assert r[..|r| - 1] == p;
      NatStringRoundTrip(n / 10);
      assert ParseNat(r) == ParseNat(p) * 10 + n % 10;
    }
  }

  /** Python's `str(i)` for any integer. */
  function IntToString(i: int): (r: string)
  {
    if i < 0 then "-" + NatToString(-i) else NatToString(i)
  }
}

=== FILE: toggles.dfy ===
/** The relationship toggles: follow a user, favourite a recipe, put a recipe
    in the shopping cart, and their reversals.  Each is a two-state machine
    per (actor, target) pair over one of the store's link tables.
 */
module Toggles {
  import opened Results
  import opened Links
  import opened Store
  import opened Permissions

  // ----- follows -----

  /** `CheckFollowSerializer.validate` for a request with method `m`. */
  function CheckFollow(follows: seq<Link>, m: Method, user: nat, following: nat): (r: Result<Link>)
    ensures r.Ok? ==> r.value == Link(user, following)
    ensures m == POST ==> (r.Ok? <==> user != following && !Present(follows, user, following))
    ensures m == DELETE ==> (r.Ok? <==> user != following && Present(follows, user, following))
    ensures m != POST && m != DELETE ==> r.Ok?
  {
    var present := Present(follows, user, following);
    if m == POST && user == following then Err(SelfSubscription)
    else if m == POST && present then Err(AlreadyLinked(Follows))
    else if m == DELETE && user == following then Err(SelfUnsubscription)
    else if m == DELETE && !present then Err(NotLinked(Follows))
    else Ok(Link(user, following))
  }

  /** `FollowViewSet.create`: the followed user must exist, then the POST
      check, then the insert. */
  function FollowCreate(s: Store, user: nat, following: nat): (r: Result<Store>)
    ensures r.Ok? <==> FindUser(s.users, following).Some? && user != following
                       && !Present(s.follows, user, following)
    ensures r.Ok? ==> r.value == s.(follows := Insert(s.follows, user, following))
    ensures user == following && FindUser(s.users, following).Some? ==> r == Err(SelfSubscription)
  {
    if FindUser(s.users, following).None? then Err(NotFound)
    else
      var _ :- CheckFollow(s.follows, POST, user, following);
      Ok(s.(follows := Insert(s.follows, user, following)))
  }

  /** `FollowViewSet.destroy`: the followed user must exist, then the DELETE
      check, then every (user, following) row is deleted. */
  function FollowDestroy(s: Store, user: nat, following: nat): (r: Result<Store>)
    ensures r.Ok? <==> FindUser(s.users, following).Some? && user != following
                       && Present(s.follows, user, following)
    ensures r.Ok? ==> !Present(r.value.follows, user, following)
    ensures r.Ok? ==> forall l | l != Link(user, following) :: Count(r.value.follows, l) == Count(s.follows, l)
    ensures r.Ok? ==> r.value == s.(follows := r.value.follows)
    ensures user == following && FindUser(s.users, following).Some? ==> r == Err(SelfUnsubscription)
  {
    if FindUser(s.users, following).None? then Err(NotFound)
    else
      var _ :- CheckFollow(s.follows, DELETE, user, following);
      Ok(s.(follows := Remove(s.follows, user, following)))
  }

  /** Following oneself fails on both create and delete, whatever the store. */
  lemma SelfFollowAlwaysFails(s: Store, user: nat)
    ensures FollowCreate(s, user, user).Err? && FollowDestroy(s, user, user).Err?
  {
  }

  /** A second follow of the same pair fails; a follow followed by an
      unfollow gives back the store as it was. */
  lemma FollowRoundTrip(s: Store, user: nat, following: nat)
    requires FollowCreate(s, user, following).Ok?
    ensures FollowCreate(FollowCreate(s, user, following).value, user, following) == Err(AlreadyLinked(Follows))
    ensures FollowDestroy(FollowCreate(s, user, following).value, user, following) == Ok(s)
  {
    var s1 := FollowCreate(s, user, following).value;
    assert s1.users == s.users;
    RemoveUndoesInsert(s.follows, user, following);
  }

  /** Follow create and destroy keep the follow table free of duplicates and
      of self-links. */
  lemma FollowKeepsInvariant(s: Store, user: nat, following: nat)
    requires Unique(s.follows) && forall l | l in s.follows :: l.actor != l.target
    ensures var r := FollowCreate(s, user, following);
      r.Ok? ==> Unique(r.value.follows) && forall l | l in r.value.follows :: l.actor != l.target
    ensures var r := FollowDestroy(s, user, following);
      r.Ok? ==> Unique(r.value.follows) && forall l | l in r.value.follows :: l.actor != l.target
  {
    if FollowCreate(s, user, following).Ok? {
      InsertKeepsUnique(s.follows, user, following);
    }
    var r := FollowDestroy(s, user, following);
    if r.Ok? {
      RemoveKeepsUnique(s.follows, user, following);
      forall l | l in r.value.follows ensures l.actor != l.target {
        assert Count(r.value.follows, l) == Count(s.follows, l);
        assert l in multiset(s.follows);
      }
    }
  }

  // ----- favourites and shopping cart -----

  /** A relation whose target is a recipe. */
  predicate RecipeRelation(rel: Relation) {
    rel == Favorites || rel == Cart
  }

  /** `FavoriteSerializer.validate` / `ShoppingCartSerializer.validate`:
      refused exactly when the (user, recipe) row already exists. */
  function CheckNewRecipeLink(t: seq<Link>, rel: Relation, user: nat, recipe: nat): (r: Result<Link>)
    ensures r.Ok? <==> !Present(t, user, recipe)
    ensures r.Ok? ==> r.value == Link(user, recipe)
    ensures r.Err? ==> r.error == AlreadyLinked(rel)
  {
    if Present(t, user, recipe) then Err(AlreadyLinked(rel)) else Ok(Link(user, recipe))
  }

  /** `FavoriteViewSet.create` / `ShoppingCartViewSet.create`: the recipe must
      exist, the row must not, and then exactly that row is added. */
  function RecipeLinkCreate(s: Store, rel: Relation, user: nat, recipe: nat): (r: Result<Store>)
    requires RecipeRelation(rel)
    ensures r.Ok? <==> FindRecipe(s.recipes, recipe).Some? && !Present(Table(s, rel), user, recipe)
    ensures FindRecipe(s.recipes, recipe).None? ==> r == Err(NotFound)
    ensures r.Ok? ==> Present(Table(r.value, rel), user, recipe)
    ensures r.Ok? ==> Count(Table(r.value, rel), Link(user, recipe)) == 1
    ensures r.Ok? ==> forall l | l != Link(user, recipe) :: Count(Table(r.value, rel), l) == Count(Table(s, rel), l)
    ensures r.Ok? ==> r.value == WithTable(s, rel, Table(r.value, rel))
  {
    if FindRecipe(s.recipes, recipe).None? then Err(NotFound)
    else
      var _ :- CheckNewRecipeLink(Table(s, rel), rel, user, recipe);
      Ok(WithTable(s, rel, Insert(Table(s, rel), user, recipe)))
  }

  /** `FavoriteViewSet.destroy` / `ShoppingCartViewSet.destroy`.  The recipe
      lookup is `filter(pk=id).first()`, which yields nothing rather than
      raising for a missing recipe; the row check then fails the same way. */
  function RecipeLinkDestroy(s: Store, rel: Relation, user: nat, recipe: nat): (r: Result<Store>)
    requires RecipeRelation(rel)
    ensures r.Ok? <==> FindRecipe(s.recipes, recipe).Some? && Present(Table(s, rel), user, recipe)
    ensures r.Err? ==> r.error == NotLinked(rel)
    ensures r.Ok? ==> !Present(Table(r.value, rel), user, recipe)
    ensures r.Ok? ==> forall l | l != Link(user, recipe) :: Count(Table(r.value, rel), l) == Count(Table(s, rel), l)
    ensures r.Ok? ==> r.value == WithTable(s, rel, Table(r.value, rel))
  {
    var found := FindRecipe(s.recipes, recipe);
    if found.None? || !Present(Table(s, rel), user, found.value.id) then Err(NotLinked(rel))
    else Ok(WithTable(s, rel, Remove(Table(s, rel), user, recipe)))
  }

  /** Every row of the table refers to an existing recipe (the foreign key). */
  predicate TargetsExist(s: Store, rel: Relation) {
    forall l | l in Table(s, rel) :: FindRecipe(s.recipes, l.target).Some?
  }

  /** With the foreign key in place, delete fails exactly when the row is
      absent: a missing recipe is just one way of the row being absent. */
  lemma DestroyFailsIffAbsent(s: Store, rel: Relation, user: nat, recipe: nat)
    requires RecipeRelation(rel) && TargetsExist(s, rel)
    ensures RecipeLinkDestroy(s, rel, user, recipe).Err? <==> !Present(Table(s, rel), user, recipe)
  {
    if Present(Table(s, rel), user, recipe) {
      assert Link(user, recipe) in Table(s, rel);
    }
  }

  /** Creating twice fails the second time; deleting twice fails the second
      time; create then delete gives back the store as it was. */
  lemma RecipeLinkRoundTrip(s: Store, rel: Relation, user: nat, recipe: nat)
    requires RecipeRelation(rel)
    requires RecipeLinkCreate(s, rel, user, recipe).Ok?
    ensures var s1 := RecipeLinkCreate(s, rel, user, recipe).value;
      && RecipeLinkCreate(s1, rel, user, recipe) == Err(AlreadyLinked(rel))
      && RecipeLinkDestroy(s1, rel, user, recipe) == Ok(s)
      && RecipeLinkDestroy(s, rel, user, recipe) == Err(NotLinked(rel))
  {
    var s1 := RecipeLinkCreate(s, rel, user, recipe).value;
    assert s1.recipes == s.recipes;
    RemoveUndoesInsert(Table(s, rel), user, recipe);
    assert WithTable(s1, rel, Table(s, rel)) == s;
  }

  /** After a successful delete, a second delete fails. */
  lemma DestroyTwiceFails(s: Store, rel: Relation, user: nat, recipe: nat)
    requires RecipeRelation(rel)
    requires RecipeLinkDestroy(s, rel, user, recipe).Ok?
    ensures RecipeLinkDestroy(RecipeLinkDestroy(s, rel, user, recipe).value, rel, user, recipe)
         == Err(NotLinked(rel))
  {
  }

  /** Create and delete keep the table free of duplicate rows. */
  lemma RecipeLinkKeepsUnique(s: Store, rel: Relation, user: nat, recipe: nat)
    requires RecipeRelation(rel) && Unique(Table(s, rel))
    ensures var r := RecipeLinkCreate(s, rel, user, recipe); r.Ok? ==> Unique(Table(r.value, rel))
    ensures var r := RecipeLinkDestroy(s, rel, user, recipe); r.Ok? ==> Unique(Table(r.value, rel))
  {
    if RecipeLinkCreate(s, rel, user, recipe).Ok? {
      InsertKeepsUnique(Table(s, rel), user, recipe);
    }
    if RecipeLinkDestroy(s, rel, user, recipe).Ok? {
      RemoveKeepsUnique(Table(s, rel), user, recipe);
    }
  }

  /** The model's derived fields follow the favourite toggle: after a
      favourite, `is_favorited` holds and `total_favorite` is one higher; after
      an unfavourite of a duplicate-free table, it no longer holds and the
      count is one lower. */
  lemma FavoriteDerivedFields(s: Store, user: nat, recipe: nat)
    ensures var r := RecipeLinkCreate(s, Favorites, user, recipe);
      r.Ok? ==> (IsFavorited(r.value, recipe, user)
                 && TotalFavorite(r.value, recipe) == TotalFavorite(s, recipe) + 1)
    ensures var r := RecipeLinkDestroy(s, Favorites, user, recipe);
      r.Ok? && Unique(s.favorites) ==> (!IsFavorited(r.value, recipe, user)
                 && TotalFavorite(r.value, recipe) == TotalFavorite(s, recipe) - 1)
  {
    if RecipeLinkCreate(s, Favorites, user, recipe).Ok? {
      CountTargetAppend(s.favorites, Link(user, recipe), recipe);
    }
    if RecipeLinkDestroy(s, Favorites, user, recipe).Ok? && Unique(s.favorites) {
      CountTargetRemove(s.favorites, user, recipe);
      assert Count(s.favorites, Link(user, recipe)) == 1 by {
        assert Link(user, recipe) in s.favorites;
      }
    }
  }

  /** The cart's derived field follows the cart toggle. */
  lemma CartDerivedField(s: Store, user: nat, recipe: nat)
    ensures var r := RecipeLinkCreate(s, Cart, user, recipe);
      r.Ok? ==> IsInShoppingCart(r.value, recipe, user)
    ensures var r := RecipeLinkDestroy(s, Cart, user, recipe);
      r.Ok? ==> !IsInShoppingCart(r.value, recipe, user)
  {
  }
}
